=== FILE: README.md ===
# calendr booking core in Dafny

A model of the booking core of calendr, a scheduling app in which a host
publishes weekly availability and guests book meetings in the free slots of a
day. The model covers:

- the **booking-slot engine** of the booking page (`TimeTable.tsx`): the
  day's availability row and busy data (`getData`) and
  `calculateAvailableTimeSlots`. That function builds the day's window with
  the overnight wraparound, walks the fixed-step grid of candidate starts,
  drops slots that are past or overlap a busy period, and formats the
  survivors as "HH:mm" in the host's zone;
- the guest's **slot list** (`ClientTimeTable.client.tsx`): the browser-side
  re-projection of the slot strings, and the link or empty-state rendering;
- the **date filter** of the booking calendar (`RenderCalendar.tsx`,
  `isDateUnavailable`);
- the host's **availability editor** (`AvailabilityForm.tsx`). It shows the
  list in Monday-first order, with a switch and two time pickers per weekday.
  This is modelled as a class whose list field the two handlers replace;
- the **form validators** (`zodSchemas.ts`);
- the **server actions** (`actions.ts`):
  - the onboarding write with its seven default rows;
  - the settings write;
  - the availability update;
  - the meeting start and end arithmetic and the conferencing provider map;
  - the "User not found" paths of booking and cancelling.

Representation:

- An instant is an integer number of milliseconds since the epoch. The
  provider's busy periods are epoch seconds.
- A civil date is an epoch day number (day 0 is 1970-01-01, a Thursday).
- A zone is a fixed offset in minutes. The server's zone appears as its
  `getTimezoneOffset()`, in minutes behind UTC. A display zone is looked up
  by name through a function `zoneOffset` to an offset in minutes ahead of
  UTC.
- "Now", the database rows, the provider's reply (answer or failure) and
  whether a write succeeds are parameters.
- Dafny's `/` and `%` floor for a positive divisor, as `Math.floor` and the
  calendar arithmetic of `Date` do.

Files:

- `wrappers.dfy`: Option and Result.
- `seqs.dfy`: `find`/`findFirst`, and the stable sort by an integer key.
- `time_format.dfy`: instants, wall clocks and "HH:mm".
- `time_table.dfy`: the engine.
- `client_time_table.dfy`: the guest's slot list.
- `render_calendar.dfy`: the date filter.
- `availability_form.dfy`: the editor.
- `zod_schemas.dfy`: the validators.
- `actions.dfy`: the server actions.
- `scenarios.dfy`: worked examples on one host, with availability Monday
  08:00–18:00 in UTC.

Behaviour of the code worth knowing:

- **Touching slots are kept.** The overlap test is the source's six-clause
  predicate. For a non-empty busy period it equals open-interval
  intersection. A slot that ends when a busy period starts, or starts when
  one ends, is kept (`TimeTable.OverlapIsIntersection`).
- **`isActive` is not read by the server.** An inactive weekday still gets
  slots on the booking page if its date is reached (`TimeTable.SlotsIgnoreIsActive`).
  Only the calendar greys such a date out.
- **The last slot may end past the window.** The grid loop at
  `TimeTable.tsx:207-209` tests only a slot's start against the window's end.
  For 45-minute meetings in 08:00–18:00, the last slot is 17:45 and ends at
  18:30 (`Scenarios.ScenarioD`).
- **The window's date on a server west of UTC.**
  `new Date("yyyy-MM-dd")` is UTC midnight. Its local year, month and date
  are the previous day on such a server, so the window is built on that day
  (`TimeTable.ServerLocalDayCases`).
- **A booking is read in the server's zone.** Slots are formatted in the
  host's zone (`TimeTable.tsx:244`). The booking's start is
  `new Date("<date>T<time>:00")` (`actions.ts:236`), which reads that text in
  the server's zone. When the two zones differ, the meeting starts
  `hostOffset + tzOffset` minutes after the slot shown. A guest who books the
  08:00 slot of a host at UTC-5, served from a UTC server, gets a meeting at
  08:00 UTC, five hours early (`Actions.BookingShiftedByZones`).
- **The link's date is the browser's.** The link's `date` parameter is
  `selectedDate` formatted in the browser's zone (`ClientTimeTable.client.tsx:56`).
  The `formattedDate` prop, the server's date for `selectedDate`, is used only
  to read the slots back in the effect. The two dates differ when the browser
  puts `selectedDate` on another date than the server. `ClientTimeTable.Render`
  takes that browser date as its own parameter.
- **A slot after midnight is booked a day early.** When the window wraps past
  midnight (`TimeTable.tsx:184-186`), the slots after midnight fall on the next
  day. Their link still carries the selected date (`ClientTimeTable.client.tsx:56`),
  so `createMeetingAction` books such a slot on the selected date, one day
  before the slot shown. `Actions.BookingShiftedByZones` takes the booking date
  to be the slot's own date in the display zone, so it does not cover these slots.

## Model

| member | source | states |
|---|---|---|
| Seqs.FindIndex | app/components/bookingForm/RenderCalendar.tsx:61 | the index found holds the first element that satisfies the test, every earlier element fails it, and None means no element satisfies it |
| Seqs.FindIndexRespects | app/components/bookingForm/TimeTable.tsx:34-40 | two lists whose elements agree position by position on the test give the same first match |
| Seqs.InsertByMultiset | app/dashboard/availability/AvailabilityForm.tsx:48-50 | inserting adds exactly the inserted element to the multiset |
| Seqs.InsertBySorted | app/dashboard/availability/AvailabilityForm.tsx:48-50 | inserting into a list sorted by key keeps it sorted |
| Seqs.InsertByWithKey | app/dashboard/availability/AvailabilityForm.tsx:48-50 | the inserted element comes first among the elements of its key, and no other key's elements change |
| Seqs.SortBySpec | app/dashboard/availability/AvailabilityForm.tsx:48-50 | the key sort returns a sorted permutation of its input, and it is stable: each key's elements keep their relative order |
| Seqs.SortSortedIsIdentity | app/dashboard/availability/AvailabilityForm.tsx:74 | sorting a list already sorted by key returns it unchanged |
| Seqs.Find | app/components/bookingForm/RenderCalendar.tsx:61-62 | no contract of its own; specified by Seqs.FindIndex |
| Seqs.SortBy | app/dashboard/availability/AvailabilityForm.tsx:48-50 | no contract of its own; specified by Seqs.SortBySpec |
| TimeFormat.MinuteOfDay | app/components/bookingForm/TimeTable.tsx:244 | the wall-clock minute of an instant in a zone is within 0..1439 |
| TimeFormat.ParseFormatHHmm | app/components/bookingForm/TimeTable.tsx:244 | every "HH:mm" text produced for a minute of the day reads back as that minute |
| TimeFormat.FormatParseHHmm | app/components/bookingForm/ClientTimeTable.client.tsx:29-34 | every text that reads as "HH:mm" is exactly the formatting of the minute it reads |
| TimeFormat.InstantFromWallClock | app/actions/actions.ts:236 | a minute-aligned instant is recovered from its local date and wall-clock minute, in any fixed-offset zone |
| TimeFormat.WallClockOfInstant | app/components/bookingForm/ClientTimeTable.client.tsx:29-34 | the instant of a wall-clock minute on a date shows that minute on that date in that zone |
| TimeFormat.FormatHHmm | app/components/bookingForm/TimeTable.tsx:244 | no contract of its own; specified by TimeFormat.ParseFormatHHmm and TimeFormat.FormatParseHHmm |
| TimeFormat.ParseHHmm | app/components/bookingForm/ClientTimeTable.client.tsx:29-33 | no contract of its own; specified by TimeFormat.ParseFormatHHmm and TimeFormat.FormatParseHHmm |
| TimeFormat.WallToInstant | app/components/bookingForm/TimeTable.tsx:165-172 | no contract of its own; specified by TimeFormat.InstantFromWallClock and TimeFormat.WallClockOfInstant |
| TimeFormat.FormatInTimeZone | app/components/bookingForm/TimeTable.tsx:244 | no contract of its own; specified by TimeFormat.WallClockOfInstant and TimeTable.FormatAllReadsBack |
| RenderCalendar.WeekdayIndex | app/components/bookingForm/RenderCalendar.tsx:49 | a date's weekday number is within 0..6 |
| RenderCalendar.WeekdayAfter | app/components/bookingForm/RenderCalendar.tsx:49 | consecutive dates step through the weekdays, and a week later the weekday is the same |
| RenderCalendar.DayNamesDistinct | app/components/bookingForm/RenderCalendar.tsx:50-59 | the name table is one-to-one over 0..6 (0 is Sunday) |
| RenderCalendar.UnavailableIff | app/components/bookingForm/RenderCalendar.tsx:61-62 | a date is unavailable exactly when no entry has its weekday name, or the first entry that has it is inactive |
| RenderCalendar.FirstEntryDecides | app/components/bookingForm/RenderCalendar.tsx:61 | only the first entry with the date's weekday name matters; whatever follows it does not change the answer |
| RenderCalendar.AllActiveNoneUnavailable | app/components/bookingForm/RenderCalendar.tsx:61-62 | when all seven weekday names have entries and every entry is active, no date is unavailable |
| RenderCalendar.IsDateUnavailable | app/components/bookingForm/RenderCalendar.tsx:48-63 | no contract of its own; specified by RenderCalendar.UnavailableIff and RenderCalendar.FirstEntryDecides |
| TimeTable.GetData | app/components/bookingForm/TimeTable.tsx:31-132 | the row is the first for the date's weekday; the provider is asked only when the host has a non-empty grant id and grant e-mail, for that grant and e-mail over the date's UTC day in seconds; its answer is used when it replies; without a request, or when the provider fails, there are no busy periods |
| TimeTable.DisplayZone | app/components/bookingForm/TimeTable.tsx:265 | the display zone is the host's zone when it is set and not empty, and "UTC" otherwise (also when there is no row); it is never empty |
| TimeTable.GenerateGrid | app/components/bookingForm/TimeTable.tsx:205-210 | the loop returns exactly the grid of the window for the step |
| TimeTable.CalculateAvailableTimeSlots | app/components/bookingForm/TimeTable.tsx:140-245 | an absent start or end time gives the empty list; otherwise the step-by-step Date arithmetic, wraparound, loop and filters give the slot list specified by `AvailableSlots` (properties in `AvailableSlotsSpec`) |
| TimeTable.TimeTable | app/components/bookingForm/TimeTable.tsx:247-266 | no row for the date's weekday gives the empty list; otherwise the result is the engine run on getData's row and calendar, shown in the host's zone |
| TimeTable.WindowShape | app/components/bookingForm/TimeTable.tsx:165-186 | the window starts at the date plus the stored UTC hour:minute; its length is the forward distance from start to end time around the clock; the end moves exactly one day when it is strictly earlier; equal times give an empty window |
| TimeTable.ServerLocalDayCases | app/components/bookingForm/TimeTable.tsx:151-168 | the window is built on the requested date on a server at or east of UTC, and on the day before on a server west of it |
| TimeTable.LocalShiftCancels | app/components/bookingForm/TimeTable.tsx:165-181 | building a local date-time and then subtracting the zone offset lands on the UTC wall clock; the server's zone cancels |
| TimeTable.GridShape | app/components/bookingForm/TimeTable.tsx:205-210 | the first candidate is the window start; candidates are one step apart and all before the end; one more step reaches the end; a non-empty window has a candidate |
| TimeTable.GridMembers | app/components/bookingForm/TimeTable.tsx:205-210 | a time is a candidate exactly when it lies on the step lattice from the start and strictly before the end |
| TimeTable.GridIncreasing | app/components/bookingForm/TimeTable.tsx:205-210 | the candidates are strictly increasing |
| TimeTable.OverlapIsIntersection | app/components/bookingForm/TimeTable.tsx:222-229 | for a non-empty busy period and a positive length, the six-clause test holds exactly when the open intervals intersect; touching slots are not overlaps |
| TimeTable.PastSlotsDropped | app/components/bookingForm/TimeTable.tsx:216-219 | a slot starting at or before now is never kept |
| TimeTable.FreeSlotsMembers | app/components/bookingForm/TimeTable.tsx:212-241 | the filter keeps exactly the candidates that start after now and overlap no busy period |
| TimeTable.FreeSlotsIncreasing | app/components/bookingForm/TimeTable.tsx:212 | filtering an increasing list keeps it increasing and no longer than the input |
| TimeTable.FreeSlotsAppend | app/components/bookingForm/TimeTable.tsx:212 | filtering distributes over concatenation |
| TimeTable.FreeSlotsAllKept | app/components/bookingForm/TimeTable.tsx:212 | when every candidate is free the filter keeps them all, in order |
| TimeTable.FormatAllReadsBack | app/components/bookingForm/TimeTable.tsx:244 | one string per slot, each reading back as the slot's wall-clock minute in the display zone |
| TimeTable.AvailableSlotsSpec | app/components/bookingForm/TimeTable.tsx:153-244 | the list is the formatting of the slots that are on the grid of the window, start strictly after now and overlap no busy period of the first provider entry, in strictly increasing order |
| TimeTable.EqualTimesNoSlots | app/components/bookingForm/TimeTable.tsx:184-207 | equal start and end times give no slot |
| TimeTable.BusyFromFirstEntry | app/components/bookingForm/TimeTable.tsx:194-202 | busy periods come from the first provider entry only |
| TimeTable.FallbackKeepsAllFutureSlots | app/components/bookingForm/TimeTable.tsx:55-131 | with no grant, no grant e-mail or a provider failure, the list is the formatted grid minus the slots that do not start after now |
| TimeTable.NoRowNoSlots | app/components/bookingForm/TimeTable.tsx:153-155 | no row for the weekday, or an absent start or end time, gives the empty list |
| TimeTable.SlotsIgnoreIsActive | app/components/bookingForm/TimeTable.tsx:34-53 | rows that differ only in `isActive` give the same slot list |
| TimeTable.FindRow | app/components/bookingForm/TimeTable.tsx:34-53 | no contract of its own; specified by TimeTable.GetData and TimeTable.NoRowNoSlots |
| TimeTable.BusyIntervals | app/components/bookingForm/TimeTable.tsx:194-202 | no contract of its own; specified by TimeTable.BusyFromFirstEntry |
| TimeTable.ServerLocalDay | app/components/bookingForm/TimeTable.tsx:151-158 | no contract of its own; specified by TimeTable.ServerLocalDayCases |
| TimeTable.LocalDateTime | app/components/bookingForm/TimeTable.tsx:165-181 | no contract of its own; specified by TimeTable.LocalShiftCancels |
| TimeTable.AvailabilityWindow | app/components/bookingForm/TimeTable.tsx:165-186 | no contract of its own; specified by TimeTable.WindowShape |
| TimeTable.Grid | app/components/bookingForm/TimeTable.tsx:205-210 | no contract of its own; specified by TimeTable.GridShape, TimeTable.GridMembers and TimeTable.GridIncreasing |
| TimeTable.Overlaps | app/components/bookingForm/TimeTable.tsx:222-229 | no contract of its own; specified by TimeTable.OverlapIsIntersection |
| TimeTable.IsFree | app/components/bookingForm/TimeTable.tsx:212-241 | no contract of its own; specified by TimeTable.PastSlotsDropped and TimeTable.OverlapIsIntersection |
| TimeTable.FreeSlots | app/components/bookingForm/TimeTable.tsx:212-241 | no contract of its own; specified by TimeTable.FreeSlotsMembers and TimeTable.FreeSlotsIncreasing |
| TimeTable.FormatAll | app/components/bookingForm/TimeTable.tsx:244 | no contract of its own; specified by TimeTable.FormatAllReadsBack |
| TimeTable.AvailableSlots | app/components/bookingForm/TimeTable.tsx:140-245 | no contract of its own; specified by TimeTable.AvailableSlotsSpec |
| TimeTable.TimeTableSlots | app/components/bookingForm/TimeTable.tsx:247-266 | no contract of its own; specified by TimeTable.FallbackKeepsAllFutureSlots, TimeTable.NoRowNoSlots and TimeTable.SlotsIgnoreIsActive |
| ClientTimeTable.ConvertSlotIsIdentity | app/components/bookingForm/ClientTimeTable.client.tsx:29-34 | reading a slot in the local zone and formatting it in the same zone returns the slot unchanged |
| ClientTimeTable.ConvertSlotsIsMap | app/components/bookingForm/ClientTimeTable.client.tsx:28-35 | a successful conversion has the host list's length, and element i is the conversion of host element i |
| ClientTimeTable.ConvertSlotsIsIdentity | app/components/bookingForm/ClientTimeTable.client.tsx:28-36 | a list of "HH:mm" slots converts to itself: nothing is added, removed or moved |
| ClientTimeTable.ServerSlotsShownUnchanged | app/components/bookingForm/ClientTimeTable.client.tsx:24-37 | on the server's list the effect does not throw; the list is shown unchanged after it, labelled with the detected zone |
| ClientTimeTable.LinksStableAcrossEffect | app/components/bookingForm/ClientTimeTable.client.tsx:20-64 | the label is "UTC" before the effect and the detected zone after it, and the guest sees the same links before and after |
| ClientTimeTable.RenderShape | app/components/bookingForm/ClientTimeTable.client.tsx:52-64 | an empty list shows "No available slots"; otherwise one link per slot, showing it, whose query is `?date=<browser date>&time=<slot>` |
| ClientTimeTable.InitialView | app/components/bookingForm/ClientTimeTable.client.tsx:20-22 | no contract of its own; specified by ClientTimeTable.LinksStableAcrossEffect |
| ClientTimeTable.ConvertSlot | app/components/bookingForm/ClientTimeTable.client.tsx:29-33 | no contract of its own; specified by ClientTimeTable.ConvertSlotIsIdentity |
| ClientTimeTable.ConvertSlots | app/components/bookingForm/ClientTimeTable.client.tsx:28-35 | no contract of its own; specified by ClientTimeTable.ConvertSlotsIsMap and ClientTimeTable.ConvertSlotsIsIdentity |
| ClientTimeTable.AfterEffect | app/components/bookingForm/ClientTimeTable.client.tsx:24-37 | no contract of its own; specified by ClientTimeTable.ServerSlotsShownUnchanged |
| ClientTimeTable.SlotHref | app/components/bookingForm/ClientTimeTable.client.tsx:56 | no contract of its own; specified by ClientTimeTable.RenderShape |
| ClientTimeTable.Render | app/components/bookingForm/ClientTimeTable.client.tsx:52-64 | no contract of its own; specified by ClientTimeTable.RenderShape and ClientTimeTable.LinksStableAcrossEffect |
| AvailabilityForm.DayIndex | app/dashboard/availability/AvailabilityForm.tsx:37-49 | a name's position in the Monday-first order, and -1 exactly when the name is not in it |
| AvailabilityForm.AvailabilityEditor.constructor | app/dashboard/availability/AvailabilityForm.tsx:48-52 | the initial list is the input sorted by weekday order, and the editor's list is always sorted |
| AvailabilityForm.AvailabilityEditor.HandleSwitchChange | app/dashboard/availability/AvailabilityForm.tsx:58-76 | sends the new flag with the row's current times; when the action completes, the list becomes the flag update re-sorted; the list stays sorted |
| AvailabilityForm.AvailabilityEditor.HandleTimeChange | app/dashboard/availability/AvailabilityForm.tsx:78-101 | for an unknown id nothing is sent and nothing changes; otherwise sends the payload, and when the action completes, the chosen time changes on the row; the list stays sorted |
| AvailabilityForm.SortByDayOrderSpec | app/dashboard/availability/AvailabilityForm.tsx:48-50 | the initial list is sorted by weekday position, a permutation of the input, and stable within each weekday |
| AvailabilityForm.DayOrderPositions | app/dashboard/availability/AvailabilityForm.tsx:37-45 | Monday sorts first and Sunday last; an unknown name sorts before Monday |
| AvailabilityForm.SetActiveKeepsKeys | app/dashboard/availability/AvailabilityForm.tsx:73 | setting the flag keeps every row's weekday and so its sort position |
| AvailabilityForm.SwitchUpdateSpec | app/dashboard/availability/AvailabilityForm.tsx:71-75 | only `isActive` of the rows with the id changes; the result is sorted and a permutation of the updated rows; on a sorted list no row moves |
| AvailabilityForm.TimeUpdateSpec | app/dashboard/availability/AvailabilityForm.tsx:98-100 | only the chosen time of the rows with the id changes; length, order, ids, days, flags and the other time stay; sortedness is kept; an unknown id changes nothing |
| AvailabilityForm.TimePayloadSpec | app/dashboard/availability/AvailabilityForm.tsx:83-91 | there is no payload exactly when no row has the id; otherwise the first such row supplies the flag and the time that is not being changed |
| AvailabilityForm.SortByDayOrder | app/dashboard/availability/AvailabilityForm.tsx:48-50 | no contract of its own; specified by AvailabilityForm.SortByDayOrderSpec |
| AvailabilityForm.SwitchPayload | app/dashboard/availability/AvailabilityForm.tsx:59-64 | no contract of its own; specified by AvailabilityForm.AvailabilityEditor.HandleSwitchChange |
| AvailabilityForm.SetActive | app/dashboard/availability/AvailabilityForm.tsx:71-75 | no contract of its own; specified by AvailabilityForm.SetActiveKeepsKeys |
| AvailabilityForm.SwitchUpdate | app/dashboard/availability/AvailabilityForm.tsx:71-75 | no contract of its own; specified by AvailabilityForm.SwitchUpdateSpec |
| AvailabilityForm.SetTime | app/dashboard/availability/AvailabilityForm.tsx:98-100 | no contract of its own; specified by AvailabilityForm.TimeUpdateSpec |
| AvailabilityForm.TimeUpdate | app/dashboard/availability/AvailabilityForm.tsx:98-100 | no contract of its own; specified by AvailabilityForm.TimeUpdateSpec |
| AvailabilityForm.TimePayload | app/dashboard/availability/AvailabilityForm.tsx:86-91 | no contract of its own; specified by AvailabilityForm.TimePayloadSpec |
| ZodSchemas.AtPath | app/lib/zodSchemas.ts:5-6 | one issue per failing check, in order, on the field's path |
| ZodSchemas.NameRule | app/lib/zodSchemas.ts:33 | a full name passes exactly when it has 3 to 50 characters; a short name gets only the minimum message, a long one only the maximum message |
| ZodSchemas.UsernameRule | app/lib/zodSchemas.ts:13 | a username passes exactly when it has 3 to 50 characters from `[a-zA-Z0-9-]`; each message appears exactly when its check fails |
| ZodSchemas.OnboardingRule | app/lib/zodSchemas.ts:4-7 | the onboarding form is accepted exactly when both fields are present and pass their rules, and the value carries them unchanged |
| ZodSchemas.OnboardingOnServerRule | app/lib/zodSchemas.ts:9-35 | the server-side form is accepted exactly when the client-side one is and the checker is supplied and answers "free" |
| ZodSchemas.UniquenessOnlyAfterFormat | app/lib/zodSchemas.ts:13-31 | with format issues the checker makes no difference; otherwise the full name's issues come first, then an absent checker adds one fatal "validation undefined" issue, a "no" adds "Username is already taken", and a "yes" adds nothing |
| ZodSchemas.SettingsRule | app/lib/zodSchemas.ts:37-40 | settings are accepted exactly when the name passes and an image string is present, the empty string included |
| ZodSchemas.FieldIssues | app/lib/zodSchemas.ts:4-7 | no contract of its own; specified by ZodSchemas.NameRule and ZodSchemas.UsernameRule |
| ZodSchemas.UniquenessIssues | app/lib/zodSchemas.ts:14-31 | no contract of its own; specified by ZodSchemas.UniquenessOnlyAfterFormat |
| ZodSchemas.PipedUniquenessIssues | app/lib/zodSchemas.ts:13-31 | no contract of its own; specified by ZodSchemas.UniquenessOnlyAfterFormat |
| ZodSchemas.ParseOnboarding | app/lib/zodSchemas.ts:4-7 | no contract of its own; specified by ZodSchemas.OnboardingRule |
| ZodSchemas.ParseOnboardingOnServer | app/lib/zodSchemas.ts:9-35 | no contract of its own; specified by ZodSchemas.OnboardingOnServerRule and ZodSchemas.UniquenessOnlyAfterFormat |
| ZodSchemas.ParseSettings | app/lib/zodSchemas.ts:37-40 | no contract of its own; specified by ZodSchemas.SettingsRule |
| Actions.OnboardingRowsSpec | app/actions/actions.ts:64-103 | seven rows, Monday to Sunday in the editor's order, each reading as 08:00 (minute 480) to 18:00 (minute 1080) |
| Actions.OnboardingDayNames | app/actions/actions.ts:64-103 | row i carries the calendar's weekday name number i + 1 (mod 7) |
| Actions.OnboardingDaysCoverWeek | app/actions/actions.ts:64-103 | every weekday name has exactly one onboarding row |
| Actions.OnboardedCalendarAllOpen | app/actions/actions.ts:64-103 | with the rows active, a freshly onboarded host's calendar greys out no date |
| Actions.OnboardingActionSpec | app/actions/actions.ts:35-108 | saves exactly when the form passes and the username is not taken; the write carries the submitted name, username and the seven rows, then redirects to "/onboarding/grant-id"; a valid form with a taken username is answered with the single issue "Username is already taken" |
| Actions.SettingsActionSpec | app/actions/actions.ts:110-134 | saves exactly when the name passes and an image is present; the write carries both, then redirects to "/dashboard" |
| Actions.UpdateAvailabilitySpec | app/actions/actions.ts:136-175 | "Unauthorized" exactly without a signed-in id; "Failed to update availability" exactly when the row is missing, not the user's, or the write fails; otherwise the row takes the flag, the times and the owner, and the other rows are unchanged |
| Actions.ProviderMapSpec | app/actions/actions.ts:17-21 | the three conferencing names map to themselves and any other name has no entry |
| Actions.MeetingTimes | app/actions/actions.ts:231-248 | for a readable time the start is the instant the server's clock shows that time on the date; the seconds sent are floored; end minus start is exactly the length times 60; an unreadable time sends NaN |
| Actions.BookingRoundTrip | app/actions/actions.ts:236-248 | booking the date and "HH:mm" of a minute-aligned slot shown in the server's own zone starts the meeting at that slot, and the times sent are the slot and the slot plus the length, in seconds |
| Actions.BookingShiftedByZones | app/actions/actions.ts:236 | a slot shown in the host's zone and booked by its date and "HH:mm" starts `hostOffset + tzOffset` minutes after the slot; it starts at the slot exactly when the host's zone is the server's |
| Actions.UserNotFound | app/actions/actions.ts:206-297 | both meeting actions fail with "User not found" exactly when the user record is missing; otherwise the requests carry the host's grant, the calendar, the times, the provider and the guest |
| Actions.OnboardingAction | app/actions/actions.ts:35-108 | no contract of its own; specified by Actions.OnboardingActionSpec |
| Actions.SettingsAction | app/actions/actions.ts:110-134 | no contract of its own; specified by Actions.SettingsActionSpec |
| Actions.OwnsRecord | app/actions/actions.ts:143-152 | no contract of its own; specified by Actions.UpdateAvailabilitySpec |
| Actions.ApplyUpdates | app/actions/actions.ts:154-164 | no contract of its own; specified by Actions.UpdateAvailabilitySpec |
| Actions.UpdateAvailabilityAction | app/actions/actions.ts:136-175 | no contract of its own; specified by Actions.UpdateAvailabilitySpec |
| Actions.ProviderMap | app/actions/actions.ts:17-21 | no contract of its own; specified by Actions.ProviderMapSpec |
| Actions.MeetingStart | app/actions/actions.ts:236 | no contract of its own; specified by Actions.MeetingTimes and Actions.BookingShiftedByZones |
| Actions.MeetingWhen | app/actions/actions.ts:236-248 | no contract of its own; specified by Actions.MeetingTimes |
| Actions.CreateMeetingAction | app/actions/actions.ts:206-269 | no contract of its own; specified by Actions.UserNotFound and Actions.BookingRoundTrip |
| Actions.CancelMeetingAction | app/actions/actions.ts:271-297 | no contract of its own; specified by Actions.UserNotFound |
| Scenarios.ExampleDateIsMonday | app/components/bookingForm/RenderCalendar.tsx:49-59 | 2025-01-06 (epoch day 20094) is a Monday |
| Scenarios.MondayCandidates | app/components/bookingForm/TimeTable.tsx:165-210 | for a length that fits n times into 08:00–18:00 there are n candidates, one length apart from 08:00 |
| Scenarios.MondayWithoutBusy | app/components/bookingForm/TimeTable.tsx:194-244 | with no busy period and "now" before 08:00, every Monday candidate is shown |
| Scenarios.ScenarioA | app/components/bookingForm/TimeTable.tsx:205-244 | 30-minute meetings, no busy period: twenty slots, 08:00, 08:30, …, 17:30 |
| Scenarios.NineOClockRemovesThird | app/components/bookingForm/TimeTable.tsx:212-241 | a busy period 09:00–09:30 removes exactly the 09:00 slot; the slots touching it stay |
| Scenarios.ScenarioB | app/components/bookingForm/TimeTable.tsx:212-244 | with that busy period the list is scenario A's without 09:00 |
| Scenarios.ScenarioC | app/components/bookingForm/TimeTable.tsx:55-68 | without a connected calendar the list is scenario A's whatever the provider would answer |
| Scenarios.ScenarioD | app/components/bookingForm/TimeTable.tsx:205-244 | 45-minute meetings: fourteen slots, 08:00, 08:45, …, 17:45 |
| Scenarios.ClockTexts | app/components/bookingForm/TimeTable.tsx:244 | the minutes the scenarios name format as "08:00", "08:30", "09:30", "17:30", "17:45" and "18:30" |

## Left out

- Time zones are fixed offsets. Daylight-saving rules and the IANA database
  are not modelled. The client's identity conversion can therefore fail only
  where its text does not read as "HH:mm"; the DST-gap case is outside the model.
- Civil dates are epoch day numbers. The "yyyy-MM-dd" text of the date, and
  date-fns's parsing and formatting of it, are not modelled. `parse` also
  accepts one-digit fields; only the two-digit "HH:mm" the server produces is read.
- The database and the calendar provider are not called. Their answers are
  parameters: the rows, the provider's reply or failure, whether a username
  exists, whether a write succeeds, the user record.
- The stored `fromTime`/`toTime` of an availability row are instants whose UTC
  time of day carries the wall-clock value. The update action's
  `new Date(updates.fromTime)` conversion of the "HH:mm" strings is not
  modelled; the model stores the strings sent (`Actions.ApplyUpdates`).
- The request body's `JSON.parse` failing on malformed input is not modelled.
- The conform library turns an empty form field into a missing one before
  validation. The model takes the field as given: a missing field is `None`.
- String lengths are counted in characters, not UTF-16 code units.
- `Number(meetingLength)` producing NaN is not modelled. The length is an integer.
- An ECMAScript "24:00" time, or a date rolled over by the `Date` constructor,
  is not modelled.
- `providerMap` lookups of inherited object keys (such as "toString") are not
  modelled: any name other than the three maps to none.
- `createEventTypeAction` is not modelled. The `eventTypeSchema` it validates
  with is not part of `zodSchemas.ts`, so its rules cannot be read.
- The sign-in and sign-out actions, `requireUser`, the session lookup itself,
  `redirect` beyond its target path, `revalidatePath`, and console logging are
  left out. They are I/O or framework plumbing.
- React's rendering machinery, `async`/`await` and `FormData`/JSON
  serialisation are left out. The client effect is a function of the server's
  list, and the editor's handlers are modelled as methods that send a payload
  and then replace the list when the action completes.
- Concurrency is left out: two guests booking the same slot, and server-action
  races in the editor.
- `TimeTable.CalculateAvailableTimeSlots`, `TimeTable.GenerateGrid`,
  `TimeTable.TimeTable` require a positive meeting length. The source's grid
  loop (`TimeTable.tsx:207-209`) never ends for a length of zero or less, so
  those inputs are excluded.
- An effect that throws is not followed into React's error boundary.
  `ClientTimeTable.AfterEffect` returns none for it, and
  `ClientTimeTable.ServerSlotsShownUnchanged` shows that the server's list
  never makes it throw.

=== FILE: actions.dfy ===
/**
 * The server actions: onboarding (profile plus the default weekly
 * availability), the settings form, one availability row's update, booking a
 * meeting with the calendar provider, and cancelling one.
 *
 * Database and provider calls are not performed here: what they return (a user
 * record or none, whether a write succeeds) is a parameter, and what would be
 * sent is the result. A thrown error is `Err(message)`.
 */
module Actions {
  import opened Wrappers
  import opened TimeFormat
  import ZodSchemas
  import AvailabilityForm
  import RenderCalendar

  // ---------------------------------------------------------------- onboarding and settings

  /** One availability row created at onboarding (the flag takes the store's default). */
  datatype NewAvailability = NewAvailability(day: string, fromTime: string, toTime: string)

  /** The seven rows every new host gets: each weekday, Monday first, 08:00 to 18:00. */
  const OnboardingAvailability: seq<NewAvailability> := [
    NewAvailability("Monday", "08:00", "18:00"),
    NewAvailability("Tuesday", "08:00", "18:00"),
    NewAvailability("Wednesday", "08:00", "18:00"),
    NewAvailability("Thursday", "08:00", "18:00"),
    NewAvailability("Friday", "08:00", "18:00"),
    NewAvailability("Saturday", "08:00", "18:00"),
    NewAvailability("Sunday", "08:00", "18:00")
  ]

  /** The user update written by onboarding. */
  datatype OnboardingWrite = OnboardingWrite(name: string, username: string, availability: seq<NewAvailability>)

  /** The user update written by the settings form. */
  datatype SettingsWrite = SettingsWrite(name: string, image: string)

  /** A form action's outcome: the submission's issues sent back to the form, or the
      write performed and the page redirected to. */
  datatype FormOutcome<+W> = Reply(issues: seq<ZodSchemas.Issue>) | Saved(write: W, redirect: string)

  /** OnboardingAction: validate with the uniqueness check (the username is free when
      no user has it); on success write the name, the username and the seven default
      rows, and go on to connecting a calendar. */
  function OnboardingAction(username: Option<string>, fullName: Option<string>, usernameExists: bool): FormOutcome<OnboardingWrite>
  {
    match ZodSchemas.ParseOnboardingOnServer(username, fullName, ZodSchemas.Returns(!usernameExists))
    case Failure(issues) => Reply(issues)
    case Success(v) => Saved(OnboardingWrite(v.fullName, v.username, OnboardingAvailability), "/onboarding/grant-id")
  }

  /** SettingsAction: validate; on success write the name and the image, and go to the dashboard. */
  function SettingsAction(fullName: Option<string>, profileImage: Option<string>): FormOutcome<SettingsWrite>
  {
    match ZodSchemas.ParseSettings(fullName, profileImage)
    case Failure(issues) => Reply(issues)
    case Success(v) => Saved(SettingsWrite(v.fullName, v.profileImage), "/dashboard")
  }

  // ---------------------------------------------------------------- availability update

  /** A stored availability row with its owner; the times are kept as the strings sent. */
  datatype StoredAvailability = StoredAvailability(id: string, userId: string, day: string, isActive: bool,
                                                   fromTime: Option<string>, toTime: Option<string>)

  const UpdateFailed := "Failed to update availability"

  /** Some row has this id and belongs to this user. */
  predicate OwnsRecord(records: seq<StoredAvailability>, id: string, userId: string)
  {
    exists i :: 0 <= i < |records| && records[i].id == id && records[i].userId == userId
  }

  /** The stored rows after writing `updates` to the row with its id. */
  function ApplyUpdates(records: seq<StoredAvailability>, updates: AvailabilityForm.Updates, userId: string): seq<StoredAvailability>
  {
    seq(|records|, i requires 0 <= i < |records| =>
      if records[i].id == updates.id
      then records[i].(isActive := updates.isActive, fromTime := updates.fromTime, toTime := updates.toTime, userId := userId)
      else records[i])
  }

  /** updateAvailabilityAction: "Unauthorized" without a signed-in user id; the row
      must exist and belong to the user, and the write must succeed, otherwise the
      one error "Failed to update availability". */
  function UpdateAvailabilityAction(sessionUserId: Option<string>, updates: AvailabilityForm.Updates,
                                    records: seq<StoredAvailability>, writeSucceeds: bool): Result<seq<StoredAvailability>>
  {
    if sessionUserId.None? || sessionUserId.value == "" then Err("Unauthorized")
    else if !OwnsRecord(records, updates.id, sessionUserId.value) then Err(UpdateFailed)
    else if !writeSucceeds then Err(UpdateFailed)
    else Ok(ApplyUpdates(records, updates, sessionUserId.value))
  }

  // ---------------------------------------------------------------- meetings

  /** `providerMap[provider]`: each of the three conferencing names maps to itself;
      any other name has no entry. */
  function ProviderMap(provider: string): Option<string>
  {
    if provider == "Google Meet" || provider == "Zoom Meeting" || provider == "Microsoft Teams" then Some(provider)
    else None
  }

  /** The host fields the actions select. */
  datatype GrantInfo = GrantInfo(grantEmail: Option<string>, grantId: Option<string>)

  /** The event type fields the booking selects. */
  datatype EventTypeInfo = EventTypeInfo(title: string, description: string)

  /** The booking form: the chosen date (an epoch day), time ("HH:mm"), length in
      minutes, conferencing name and the guest. */
  datatype MeetingForm = MeetingForm(eventDay: int, fromTime: string, meetingLength: int, provider: string,
                                     name: string, email: string)

  /** The event's times in epoch seconds, or the NaN pair an unreadable time produces. */
  datatype When = When(startTime: int, endTime: int) | NotANumber

  /** The event creation request sent to the calendar provider. */
  datatype EventRequest = EventRequest(identifier: Option<string>, title: Option<string>, description: Option<string>,
                                       when: When, provider: Option<string>, participantName: string,
                                       participantEmail: string, participantStatus: string,
                                       calendarId: Option<string>, notifyParticipants: bool)

  /** `new Date("<date>T<time>:00")` on a server whose getTimezoneOffset() is
      `tzOffset`: the instant the server's wall clock shows that time on that date. */
  function MeetingStart(eventDay: int, fromTime: string, tzOffset: int): Option<int>
  {
    match ParseHHmm(fromTime)
    case None => None
    case Some(m) => Some(WallToInstant(eventDay, m, -tzOffset))
  }

  /** The event's times: the start, and the start plus the length, each floored to seconds. */
  function MeetingWhen(form: MeetingForm, tzOffset: int): When
  {
    match MeetingStart(form.eventDay, form.fromTime, tzOffset)
    case None => NotANumber
    case Some(start) =>
      var end := start + form.meetingLength * MsPerMinute;
      When(start / MsPerSecond, end / MsPerSecond)
  }

  /** createMeetingAction: "User not found" when the host does not exist; otherwise
      the event request (a missing event type leaves title and description out). */
  function CreateMeetingAction(user: Option<GrantInfo>, eventType: Option<EventTypeInfo>, form: MeetingForm,
                               tzOffset: int): Result<EventRequest>
  {
    if user.None? then Err("User not found")
    else
      Ok(EventRequest(user.value.grantId,
                      if eventType.Some? then Some(eventType.value.title) else None,
                      if eventType.Some? then Some(eventType.value.description) else None,
                      MeetingWhen(form, tzOffset), ProviderMap(form.provider),
                      form.name, form.email, "yes", user.value.grantEmail, true))
  }

  /** The event deletion request sent to the calendar provider. */
  datatype DestroyRequest = DestroyRequest(eventId: string, identifier: Option<string>, calendarId: Option<string>)

  /** cancelMeetingAction: "User not found" when the signed-in user has no record;
      otherwise the deletion request for the event. */
  function CancelMeetingAction(user: Option<GrantInfo>, eventId: string): Result<DestroyRequest>
  {
    if user.None? then Err("User not found")
    else Ok(DestroyRequest(eventId, user.value.grantId, user.value.grantEmail))
  }

  // ---------------------------------------------------------------- properties

  /** Onboarding creates exactly seven rows, one per weekday in the editor's display
      order (Monday first), each from 08:00 (minute 480) to 18:00 (minute 1080). */
  lemma OnboardingRowsSpec()
    ensures |OnboardingAvailability| == 7
    ensures forall i :: 0 <= i < 7 ==> OnboardingAvailability[i].day == AvailabilityForm.DayOrder[i]
    ensures forall i :: 0 <= i < 7 ==>
      ParseHHmm(OnboardingAvailability[i].fromTime) == Some(480) &&
      ParseHHmm(OnboardingAvailability[i].toTime) == Some(1080)
  {
    assert ParseHHmm("08:00") == Some(480);
    assert ParseHHmm("18:00") == Some(1080);
  }

  /** Row i carries the booking calendar's weekday name number i + 1 (mod 7). */
  lemma OnboardingDayNames()
    ensures forall i :: 0 <= i < 7 ==> OnboardingAvailability[i].day == RenderCalendar.DayNames[(i + 1) % 7]
  {
  }

  /** Every weekday name of the booking calendar has exactly one onboarding row. */
  lemma OnboardingDaysCoverWeek()
    ensures forall name :: name in RenderCalendar.DayNames ==>
      exists i :: 0 <= i < 7 && OnboardingAvailability[i].day == name
    ensures forall i, j :: 0 <= i < j < 7 ==> OnboardingAvailability[i].day != OnboardingAvailability[j].day
  {
    OnboardingDayNames();
    forall i, j | 0 <= i < j < 7 ensures OnboardingAvailability[i].day != OnboardingAvailability[j].day {
      RenderCalendar.DayNamesDistinct((i + 1) % 7, (j + 1) % 7);
    }
    forall name | name in RenderCalendar.DayNames
      ensures exists i :: 0 <= i < 7 && OnboardingAvailability[i].day == name
    {
      var k :| 0 <= k < 7 && RenderCalendar.DayNames[k] == name;
      assert OnboardingAvailability[(k + 6) % 7].day == RenderCalendar.DayNames[k];
    }
  }

  /** With the rows created active, the booking calendar of a freshly onboarded host
      greys out no date. */
  lemma OnboardedCalendarAllOpen(day: int)
    ensures var availability := seq(7, i requires 0 <= i < 7 =>
                                      RenderCalendar.DayAvailability(OnboardingAvailability[i].day, true));
      !RenderCalendar.IsDateUnavailable(day, availability)
  {
    var availability := seq(7, i requires 0 <= i < 7 =>
                              RenderCalendar.DayAvailability(OnboardingAvailability[i].day, true));
    OnboardingDaysCoverWeek();
    forall name | name in RenderCalendar.DayNames ensures RenderCalendar.HasEntry(availability, name) {
      var i :| 0 <= i < 7 && OnboardingAvailability[i].day == name;
      assert availability[i].day == name;
    }
    RenderCalendar.AllActiveNoneUnavailable(availability, day);
  }

  /** Onboarding saves exactly when the form passes the server-side schema and the
      username is not taken; it then writes the submitted name and username with
      the seven default rows. A taken but well-formed username is reported as such. */
  lemma OnboardingActionSpec(username: Option<string>, fullName: Option<string>, usernameExists: bool)
    ensures OnboardingAction(username, fullName, usernameExists).Saved? <==>
      ZodSchemas.ParseOnboarding(fullName, username).Success? && !usernameExists
    ensures OnboardingAction(username, fullName, usernameExists).Saved? ==>
      OnboardingAction(username, fullName, usernameExists) ==
        Saved(OnboardingWrite(fullName.value, username.value, OnboardingAvailability), "/onboarding/grant-id")
    ensures ZodSchemas.ParseOnboarding(fullName, username).Success? && usernameExists ==>
      OnboardingAction(username, fullName, usernameExists) ==
        Reply([ZodSchemas.Issue("username", ZodSchemas.UsernameTaken, false)])
  {
    ZodSchemas.OnboardingOnServerRule(username, fullName, ZodSchemas.Returns(!usernameExists));
    ZodSchemas.OnboardingRule(fullName, username);
    ZodSchemas.UniquenessOnlyAfterFormat(username, fullName, ZodSchemas.Returns(!usernameExists), ZodSchemas.Returns(!usernameExists));
  }

  /** Settings save exactly when the name passes its rule and an image string is
      present; the write carries both unchanged, an empty image included. */
  lemma SettingsActionSpec(fullName: Option<string>, profileImage: Option<string>)
    ensures SettingsAction(fullName, profileImage).Saved? <==>
      fullName.Some? && ZodSchemas.NameMin <= |fullName.value| <= ZodSchemas.NameMax && profileImage.Some?
    ensures SettingsAction(fullName, profileImage).Saved? ==>
      SettingsAction(fullName, profileImage) == Saved(SettingsWrite(fullName.value, profileImage.value), "/dashboard")
  {
    ZodSchemas.SettingsRule(fullName, profileImage);
  }

  /** The update's error cases and its effect: without a signed-in id it is
      "Unauthorized"; a row that is missing or not the user's, or a failed write, is
      "Failed to update availability"; otherwise the rows carrying the id take the
      flag and the times sent, and every other row is unchanged. */
  lemma UpdateAvailabilitySpec(sessionUserId: Option<string>, updates: AvailabilityForm.Updates,
                               records: seq<StoredAvailability>, writeSucceeds: bool)
    ensures var r := UpdateAvailabilityAction(sessionUserId, updates, records, writeSucceeds);
      && (r == Err("Unauthorized") <==> sessionUserId.None? || sessionUserId.value == "")
      && (r == Err(UpdateFailed) <==>
            sessionUserId.Some? && sessionUserId.value != "" &&
            (!OwnsRecord(records, updates.id, sessionUserId.value) || !writeSucceeds))
      && (r.Ok? ==>
            && |r.value| == |records|
            && forall i :: 0 <= i < |records| ==>
                 if records[i].id == updates.id then
                   && r.value[i].id == records[i].id && r.value[i].day == records[i].day
                   && r.value[i].userId == sessionUserId.value
                   && r.value[i].isActive == updates.isActive
                   && r.value[i].fromTime == updates.fromTime && r.value[i].toTime == updates.toTime
                 else r.value[i] == records[i])
  {
  }

  /** The three conferencing names map to themselves and nothing else has an entry. */
  lemma ProviderMapSpec(provider: string)
    ensures ProviderMap(provider).Some? <==> provider in {"Google Meet", "Zoom Meeting", "Microsoft Teams"}
    ensures ProviderMap(provider).Some? ==> ProviderMap(provider).value == provider
  {
  }

  /** A booking for a readable time starts at the instant the server's clock shows
      that time on the chosen date, ends `meetingLength` minutes later, and the
      seconds sent differ by exactly `meetingLength * 60`; an unreadable time sends NaN. */
  lemma MeetingTimes(form: MeetingForm, tzOffset: int)
    ensures ParseHHmm(form.fromTime).None? <==> MeetingWhen(form, tzOffset).NotANumber?
    ensures ParseHHmm(form.fromTime).Some? ==>
      var start := MeetingStart(form.eventDay, form.fromTime, tzOffset).value;
      && LocalDay(start, -tzOffset) == form.eventDay
      && FormatInTimeZone(start, -tzOffset) == form.fromTime
      && start % MsPerMinute == 0
      && MeetingWhen(form, tzOffset) == When(start / MsPerSecond, (start + form.meetingLength * MsPerMinute) / MsPerSecond)
      && MeetingWhen(form, tzOffset).endTime - MeetingWhen(form, tzOffset).startTime == form.meetingLength * 60
  {
    if ParseHHmm(form.fromTime).Some? {
      var m := ParseHHmm(form.fromTime).value;
      FormatParseHHmm(form.fromTime);
      WallClockOfInstant(form.eventDay, m, -tzOffset);
      var x := form.eventDay * MinutesPerDay + m + tzOffset;
      var start := x * MsPerMinute;
      assert start / MsPerSecond == x * 60;
      assert (start + form.meetingLength * MsPerMinute) / MsPerSecond == x * 60 + form.meetingLength * 60;
    }
  }

  /** Booking a slot shown in the zone the server runs in gives back that slot: the
      date and "HH:mm" of a minute-aligned slot instant make the meeting start at
      that very instant. */
  lemma BookingRoundTrip(slot: int, tzOffset: int, meetingLength: int, provider: string, name: string, email: string)
    requires slot % MsPerMinute == 0
    ensures var form := MeetingForm(LocalDay(slot, -tzOffset), FormatInTimeZone(slot, -tzOffset), meetingLength, provider, name, email);
      && MeetingStart(form.eventDay, form.fromTime, tzOffset) == Some(slot)
      && MeetingWhen(form, tzOffset) == When(slot / MsPerSecond, slot / MsPerSecond + meetingLength * 60)
  {
    var m := MinuteOfDay(slot, -tzOffset);
    ParseFormatHHmm(m);
    InstantFromWallClock(slot, -tzOffset);
    assert (slot + meetingLength * MsPerMinute) / MsPerSecond == slot / MsPerSecond + meetingLength * 60;
  }

  /** Booking a slot the page showed, in general: the slot is shown as "HH:mm" in the
      host's display zone (`displayOffset` minutes ahead of UTC), but the booking
      reads that text back in the server's zone. Taking the date as the slot's date
      in the display zone, the meeting starts `displayOffset + tzOffset` minutes after
      the slot, which is the slot itself exactly when the two zones agree. A host at
      UTC-5 (displayOffset -300) on a UTC server (tzOffset 0) gets a meeting five
      hours before the slot shown. */
  lemma BookingShiftedByZones(slot: int, displayOffset: int, tzOffset: int)
    requires slot % MsPerMinute == 0
    ensures MeetingStart(LocalDay(slot, displayOffset), FormatInTimeZone(slot, displayOffset), tzOffset)
         == Some(slot + (displayOffset + tzOffset) * MsPerMinute)
    ensures MeetingStart(LocalDay(slot, displayOffset), FormatInTimeZone(slot, displayOffset), tzOffset) == Some(slot)
        <==> displayOffset == -tzOffset
  {
    var d, m := LocalDay(slot, displayOffset), MinuteOfDay(slot, displayOffset);
    ParseFormatHHmm(m);
    InstantFromWallClock(slot, displayOffset);
    assert WallToInstant(d, m, -tzOffset) == WallToInstant(d, m, displayOffset) + (displayOffset + tzOffset) * MsPerMinute;
  }

  /** Both meeting actions stop with "User not found" exactly when the user record is missing. */
  lemma UserNotFound(user: Option<GrantInfo>, eventType: Option<EventTypeInfo>, form: MeetingForm, tzOffset: int, eventId: string)
    ensures CreateMeetingAction(user, eventType, form, tzOffset) == Err("User not found") <==> user.None?
    ensures CancelMeetingAction(user, eventId) == Err("User not found") <==> user.None?
    ensures user.Some? ==>
      var req := CreateMeetingAction(user, eventType, form, tzOffset).value;
      && req.identifier == user.value.grantId && req.calendarId == user.value.grantEmail
      && req.when == MeetingWhen(form, tzOffset) && req.provider == ProviderMap(form.provider)
      && req.participantName == form.name && req.participantEmail == form.email
      && req.notifyParticipants
    ensures user.Some? ==> CancelMeetingAction(user, eventId) == Ok(DestroyRequest(eventId, user.value.grantId, user.value.grantEmail))
  {
  }
}

=== FILE: availability_form.dfy ===
/**
 * The host's weekly availability editor: the list is shown in Monday-first
 * order, a switch toggles one weekday on or off, and a time picker changes one
 * weekday's start or end time. Each change is sent to the server as an update
 * payload before the list is replaced.
 */
module AvailabilityForm {
  import opened Wrappers
  import Seqs

  /** One row of the editor. */
  datatype Availability = Availability(id: string, day: string, fromTime: string, toTime: string, isActive: bool)

  /** Which of the two times a picker edits. */
  datatype TimeField = FromTime | ToTime

  /** The update payload sent to the server; absent times are `undefined` in the JSON. */
  datatype Updates = Updates(id: string, isActive: bool, fromTime: Option<string>, toTime: Option<string>)

  /** Display order of the weekdays: Monday first, Sunday last. */
  const DayOrder: seq<string> := ["Monday", "Tuesday", "Wednesday", "Thursday", "Friday", "Saturday", "Sunday"]

  /** `dayOrder.indexOf(day)`: the position of `day`, or -1 for a name not in the list. */
  function DayIndex(day: string): (r: int)
    ensures -1 <= r < |DayOrder|
    ensures r >= 0 ==> DayOrder[r] == day
    ensures r == -1 <==> day !in DayOrder
  {
    match Seqs.FindIndex(DayOrder, (d: string) => d == day)
    case None => -1
    case Some(i) => i
  }

  function DayKey(a: Availability): int
  {
    DayIndex(a.day)
  }

  /** Rows in non-decreasing `dayOrder` position. */
  ghost predicate SortedByDay(s: seq<Availability>)
  {
    Seqs.SortedBy(s, DayKey)
  }

  /** The stable sort `[...list].sort((a, b) => dayOrder.indexOf(a.day) - dayOrder.indexOf(b.day))`. */
  function SortByDayOrder(s: seq<Availability>): seq<Availability>
  {
    Seqs.SortBy(s, DayKey)
  }

  /** handleSwitchChange's payload: the new flag and the row's current times
      (`undefined` when no row has the id). */
  function SwitchPayload(list: seq<Availability>, id: string, checked: bool): Updates
  {
    match Seqs.Find(list, (a: Availability) => a.id == id)
    case None => Updates(id, checked, None, None)
    case Some(a) => Updates(id, checked, Some(a.fromTime), Some(a.toTime))
  }

  /** The rows with `isActive` set to `checked` on every row carrying `id`. */
  function SetActive(list: seq<Availability>, id: string, checked: bool): seq<Availability>
  {
    seq(|list|, i requires 0 <= i < |list| => if list[i].id == id then list[i].(isActive := checked) else list[i])
  }

  /** handleSwitchChange's new list: the flag changed, then re-sorted by `dayOrder`. */
  function SwitchUpdate(list: seq<Availability>, id: string, checked: bool): seq<Availability>
  {
    SortByDayOrder(SetActive(list, id, checked))
  }

  function SetTime(a: Availability, field: TimeField, value: string): Availability
  {
    match field
    case FromTime => a.(fromTime := value)
    case ToTime => a.(toTime := value)
  }

  /** handleTimeChange's new list: the chosen time replaced on every row carrying `id`. */
  function TimeUpdate(list: seq<Availability>, id: string, field: TimeField, value: string): seq<Availability>
  {
    seq(|list|, i requires 0 <= i < |list| => if list[i].id == id then SetTime(list[i], field, value) else list[i])
  }

  /** handleTimeChange's payload, or None when no row has the id (the handler returns early). */
  function TimePayload(list: seq<Availability>, id: string, field: TimeField, value: string): Option<Updates>
  {
    match Seqs.Find(list, (a: Availability) => a.id == id)
    case None => None
    case Some(a) => Some(Updates(id, a.isActive,
                                 Some(if field == FromTime then value else a.fromTime),
                                 Some(if field == ToTime then value else a.toTime)))
  }

  // ---------------------------------------------------------------- the component's state

  /** The editor component: its list state, changed only by the two handlers. */
  class AvailabilityEditor {
    var availabilities: seq<Availability>

    ghost predicate Valid()
      reads this
    {
      SortedByDay(availabilities)
    }

    /** The initial state is the input sorted by `dayOrder`. */
    constructor (initialData: seq<Availability>)
      ensures Valid()
      ensures availabilities == SortByDayOrder(initialData)
    {
      availabilities := SortByDayOrder(initialData);
      new;
      SortByDayOrderSpec(initialData);
    }

    /** Sends the switch payload; when the server action completes, the flag is set
        on the row and the list re-sorted. When the action throws, nothing changes. */
    method HandleSwitchChange(id: string, checked: bool, actionCompletes: bool) returns (sent: Updates)
      requires Valid()
      modifies this
      ensures Valid()
      ensures sent == SwitchPayload(old(availabilities), id, checked)
      ensures availabilities == if actionCompletes then SwitchUpdate(old(availabilities), id, checked) else old(availabilities)
    {
      sent := SwitchPayload(availabilities, id, checked);
      if actionCompletes {
        availabilities := SwitchUpdate(availabilities, id, checked);
        SortByDayOrderSpec(SetActive(old(availabilities), id, checked));
      }
    }

    /** Sends the time payload and then replaces the chosen time on the row; for an
        unknown id nothing is sent and nothing changes. */
    method HandleTimeChange(id: string, field: TimeField, value: string, actionCompletes: bool) returns (sent: Option<Updates>)
      requires Valid()
      modifies this
      ensures Valid()
      ensures sent == TimePayload(old(availabilities), id, field, value)
      ensures availabilities == if sent.Some? && actionCompletes then TimeUpdate(old(availabilities), id, field, value) else old(availabilities)
    {
      sent := TimePayload(availabilities, id, field, value);
      if sent.None? {
        return;
      }
      if actionCompletes {
        TimeUpdateSpec(availabilities, id, field, value);
        availabilities := TimeUpdate(availabilities, id, field, value);
      }
    }
  }

  // ---------------------------------------------------------------- properties

  /** The initial sort: sorted by `dayOrder` position, a permutation of the input, and
      stable (rows of the same weekday keep their relative order). */
  lemma SortByDayOrderSpec(s: seq<Availability>)
    ensures SortedByDay(SortByDayOrder(s))
    ensures multiset(SortByDayOrder(s)) == multiset(s)
    ensures forall k :: Seqs.WithKey(SortByDayOrder(s), DayKey, k) == Seqs.WithKey(s, DayKey, k)
  {
    Seqs.SortBySpec(s, DayKey);
  }

  /** Monday sorts first and Sunday last; a day name outside the list sorts before Monday. */
  lemma DayOrderPositions()
    ensures DayIndex("Monday") == 0 && DayIndex("Sunday") == 6
    ensures forall d :: d !in DayOrder ==> DayIndex(d) < DayIndex("Monday")
  {
    assert DayOrder[0] == "Monday" && DayOrder[6] == "Sunday";
    var i := DayIndex("Sunday");
    assert DayOrder[i] == "Sunday";
    assert forall j :: 0 <= j < 6 ==> DayOrder[j] != "Sunday";
  }

  /** Setting the flag keeps every row's weekday, so it keeps every row's sort key. */
  lemma SetActiveKeepsKeys(list: seq<Availability>, id: string, checked: bool)
    ensures var m := SetActive(list, id, checked);
      |m| == |list| && forall i :: 0 <= i < |list| ==> DayKey(m[i]) == DayKey(list[i])
  {
    var m := SetActive(list, id, checked);
    forall i | 0 <= i < |list| ensures DayKey(m[i]) == DayKey(list[i]) {
      assert m[i].day == list[i].day;
    }
  }

  /** The switch update changes `isActive` of the rows carrying `id` and nothing else,
      and returns the list in `dayOrder`; on a list already in that order (the
      editor's state always is) the positions do not move. */
  lemma SwitchUpdateSpec(list: seq<Availability>, id: string, checked: bool)
    ensures var m := SetActive(list, id, checked);
      && |m| == |list|
      && (forall i :: 0 <= i < |list| && list[i].id == id ==> m[i] == list[i].(isActive := checked))
      && (forall i :: 0 <= i < |list| && list[i].id != id ==> m[i] == list[i])
      && SortedByDay(SwitchUpdate(list, id, checked))
      && multiset(SwitchUpdate(list, id, checked)) == multiset(m)
    ensures SortedByDay(list) ==> SwitchUpdate(list, id, checked) == SetActive(list, id, checked)
  {
    var m := SetActive(list, id, checked);
    SortByDayOrderSpec(m);
    if SortedByDay(list) {
      SetActiveKeepsKeys(list, id, checked);
      Seqs.SortedByCongruent(list, m, DayKey);
      Seqs.SortSortedIsIdentity(m, DayKey);
    }
  }

  /** The time update changes only the chosen time of the rows carrying `id`: the
      length, the order, the ids, the days, the flags and the other time stay. */
  lemma TimeUpdateSpec(list: seq<Availability>, id: string, field: TimeField, value: string)
    ensures var r := TimeUpdate(list, id, field, value);
      && |r| == |list|
      && (forall i :: 0 <= i < |list| ==>
            && r[i].id == list[i].id && r[i].day == list[i].day && r[i].isActive == list[i].isActive
            && r[i].fromTime == (if list[i].id == id && field == FromTime then value else list[i].fromTime)
            && r[i].toTime == (if list[i].id == id && field == ToTime then value else list[i].toTime))
      && (SortedByDay(list) ==> SortedByDay(r))
    ensures (forall i :: 0 <= i < |list| ==> list[i].id != id) ==> TimeUpdate(list, id, field, value) == list
  {
  }

  /** The time payload: nothing for an unknown id; otherwise the first row with the id
      supplies the flag and the time that is not being changed. */
  lemma TimePayloadSpec(list: seq<Availability>, id: string, field: TimeField, value: string)
    ensures TimePayload(list, id, field, value).None? <==> (forall i :: 0 <= i < |list| ==> list[i].id != id)
    ensures TimePayload(list, id, field, value).Some? ==>
      exists i :: 0 <= i < |list| && list[i].id == id && (forall j :: 0 <= j < i ==> list[j].id != id) &&
        TimePayload(list, id, field, value).value ==
          Updates(id, list[i].isActive,
                  Some(if field == FromTime then value else list[i].fromTime),
                  Some(if field == ToTime then value else list[i].toTime))
  {
    var p := (a: Availability) => a.id == id;
    var r := Seqs.FindIndex(list, p);
    if r.Some? {
      assert forall j :: 0 <= j < r.value ==> !p(list[j]);
    } else {
      assert forall j :: 0 <= j < |list| ==> !p(list[j]);
    }
  }
}

=== FILE: client_time_table.dfy ===
/**
 * The guest-facing slot list: the browser re-reads each host-zone "HH:mm"
 * string on the selected date in its own local zone, re-formats it in the
 * zone it detects, and shows one link per slot.
 *
 * The browser's local zone and the zone it detects are the same fixed offset
 * `localOffset` (minutes ahead of UTC).
 */
module ClientTimeTable {
  import opened Wrappers
  import opened TimeFormat
  import TimeTable

  /** What the component shows: the zone label and the slot strings. */
  datatype ClientView = ClientView(clientTimezone: string, availableSlots: seq<string>)

  /** One booking link: its query string and its text. */
  datatype SlotLink = SlotLink(href: string, text: string)

  /** The rendered list: the empty-state text, or one link per slot. */
  datatype SlotList = NoSlots(message: string) | Links(links: seq<SlotLink>)

  /** Before the effect runs: the host's list, labelled "UTC". */
  function InitialView(availableSlotsHostTz: seq<string>): ClientView
  {
    ClientView("UTC", availableSlotsHostTz)
  }

  /** One slot's conversion: `parse("<date> <time>", "yyyy-MM-dd HH:mm")` in the local
      zone, then `formatInTimeZone(..., detected zone, "HH:mm")`. None when the time
      does not read (the source's formatter throws on the resulting invalid date). */
  function ConvertSlot(day: int, time: string, localOffset: int): Option<string>
  {
    match ParseHHmm(time)
    case None => None
    case Some(m) => Some(FormatInTimeZone(WallToInstant(day, m, localOffset), localOffset))
  }

  /** `availableSlotsHostTz.map(...)`: None when any slot fails to convert. */
  function ConvertSlots(day: int, slots: seq<string>, localOffset: int): Option<seq<string>>
  {
    if |slots| == 0 then Some([])
    else match (ConvertSlot(day, slots[0], localOffset), ConvertSlots(day, slots[1..], localOffset))
      case (Some(t), Some(rest)) => Some([t] + rest)
      case _ => None
  }

  /** The effect, on the `day` of the `formattedDate` prop (the server's date of the
      booking): the detected zone becomes the label and the converted list replaces
      the shown one. None when the conversion throws: the error leaves the effect,
      and the component no longer renders. */
  function AfterEffect(day: int, availableSlotsHostTz: seq<string>, detectedZone: string, localOffset: int): Option<ClientView>
  {
    match ConvertSlots(day, availableSlotsHostTz, localOffset)
    case Some(converted) => Some(ClientView(detectedZone, converted))
    case None => None
  }

  /** The booking link of one slot. `browserDate` is `selectedDate` formatted as
      "yyyy-MM-dd" in the browser's zone, not the `formattedDate` prop: the two differ
      when the browser puts `selectedDate` on another date than the server did. */
  function SlotHref(browserDate: string, slot: string): string
  {
    "?date=" + browserDate + "&time=" + slot
  }

  /** The slot list section: "No available slots", or one link per shown slot. */
  function Render(view: ClientView, browserDate: string): SlotList
  {
    if |view.availableSlots| == 0 then NoSlots("No available slots")
    else Links(seq(|view.availableSlots|, i requires 0 <= i < |view.availableSlots| =>
                 SlotLink(SlotHref(browserDate, view.availableSlots[i]), view.availableSlots[i])))
  }

  /** Reading a slot and writing it back in the same zone gives the slot unchanged. */
  lemma ConvertSlotIsIdentity(day: int, time: string, localOffset: int)
    requires ParseHHmm(time).Some?
    ensures ConvertSlot(day, time, localOffset) == Some(time)
  {
    var m := ParseHHmm(time).value;
    FormatParseHHmm(time);
    WallClockOfInstant(day, m, localOffset);
  }

  /** The conversion is a map: when it succeeds, the result has the host list's length
      and element i is the conversion of host element i. */
  lemma {:induction false} ConvertSlotsIsMap(day: int, slots: seq<string>, localOffset: int)
    requires ConvertSlots(day, slots, localOffset).Some?
    ensures var r := ConvertSlots(day, slots, localOffset).value;
      |r| == |slots| && forall i :: 0 <= i < |slots| ==> Some(r[i]) == ConvertSlot(day, slots[i], localOffset)
  {
    if |slots| > 0 {
      ConvertSlotsIsMap(day, slots[1..], localOffset);
      var r := ConvertSlots(day, slots, localOffset).value;
      var rest := ConvertSlots(day, slots[1..], localOffset).value;
      assert r == [r[0]] + rest;
      forall i | 0 < i < |slots| ensures Some(r[i]) == ConvertSlot(day, slots[i], localOffset) {
        assert r[i] == rest[i - 1] && slots[i] == slots[1..][i - 1];
      }
    }
  }

  /** Every slot of a list that reads as "HH:mm" comes back unchanged: no slot is added,
      removed or moved. */
  lemma {:induction false} ConvertSlotsIsIdentity(day: int, slots: seq<string>, localOffset: int)
    requires forall i :: 0 <= i < |slots| ==> ParseHHmm(slots[i]).Some?
    ensures ConvertSlots(day, slots, localOffset) == Some(slots)
  {
    if |slots| > 0 {
      ConvertSlotIsIdentity(day, slots[0], localOffset);
      ConvertSlotsIsIdentity(day, slots[1..], localOffset);
      assert slots == [slots[0]] + slots[1..];
    }
  }

  /** End to end: the list the server computes is shown unchanged after the effect,
      labelled with the detected zone. */
  lemma ServerSlotsShownUnchanged(rows: seq<TimeTable.AvailabilityRow>, day: int, reply: TimeTable.ProviderReply,
                                  duration: int, now: int, tzOffset: int, zoneOffset: string -> int,
                                  detectedZone: string, localOffset: int)
    requires duration > 0
    ensures var host := TimeTable.TimeTableSlots(rows, day, reply, duration, now, tzOffset, zoneOffset);
      AfterEffect(day, host, detectedZone, localOffset) == Some(ClientView(detectedZone, host))
  {
    var host := TimeTable.TimeTableSlots(rows, day, reply, duration, now, tzOffset, zoneOffset);
    var d := TimeTable.GetData(rows, day, reply);
    if d.row.Some? && d.row.value.fromTime.Some? && d.row.value.toTime.Some? {
      var free := TimeTable.FreeSlots(
        TimeTable.CandidateStarts(day, d.row.value.fromTime.value, d.row.value.toTime.value, duration, tzOffset),
        TimeTable.BusyIntervals(d.calendar), now, duration * MsPerMinute);
      TimeTable.FormatAllReadsBack(free, zoneOffset(TimeTable.DisplayZone(d.row)));
    }
    ConvertSlotsIsIdentity(day, host, localOffset);
  }

  /** An empty list shows the empty-state text; otherwise there is exactly one link per
      slot, showing it, whose query carries the date and that slot. */
  lemma RenderShape(view: ClientView, browserDate: string)
    ensures Render(view, browserDate).NoSlots? <==> |view.availableSlots| == 0
    ensures Render(view, browserDate).NoSlots? ==> Render(view, browserDate).message == "No available slots"
    ensures Render(view, browserDate).Links? ==>
      var links := Render(view, browserDate).links;
      |links| == |view.availableSlots| &&
      forall i :: 0 <= i < |links| ==>
        && links[i].text == view.availableSlots[i]
        && links[i].href[..6 + |browserDate|] == "?date=" + browserDate
        && links[i].href[6 + |browserDate|..12 + |browserDate|] == "&time="
        && links[i].href[12 + |browserDate|..] == view.availableSlots[i]
  {
  }

  /** The guest sees the same links before and after the effect: for the server's
      list, the effect does not throw, and only the zone label changes. */
  lemma LinksStableAcrossEffect(rows: seq<TimeTable.AvailabilityRow>, day: int, reply: TimeTable.ProviderReply,
                                duration: int, now: int, tzOffset: int, zoneOffset: string -> int,
                                detectedZone: string, localOffset: int, browserDate: string)
    requires duration > 0
    ensures var host := TimeTable.TimeTableSlots(rows, day, reply, duration, now, tzOffset, zoneOffset);
      var after := AfterEffect(day, host, detectedZone, localOffset);
      && after.Some?
      && InitialView(host).clientTimezone == "UTC"
      && after.value.clientTimezone == detectedZone
      && Render(after.value, browserDate) == Render(InitialView(host), browserDate)
  {
    ServerSlotsShownUnchanged(rows, day, reply, duration, now, tzOffset, zoneOffset, detectedZone, localOffset);
  }
}

=== FILE: render_calendar.dfy ===
/**
 * The booking calendar's day filter: a date is greyed out unless the host's
 * availability entry for its weekday is active.
 */
module RenderCalendar {
  import opened Wrappers
  import Seqs

  /** English weekday names indexed as `Date.getDay()` numbers them: 0 is Sunday. */
  const DayNames: seq<string> := ["Sunday", "Monday", "Tuesday", "Wednesday", "Thursday", "Friday", "Saturday"]

  /** `getDay()` of a civil date: 1970-01-01 (epoch day 0) was a Thursday. */
  function WeekdayIndex(day: int): (w: int)
    ensures 0 <= w < 7
  {
    (day + 4) % 7
  }

  /** The weekday name of a civil date (`dayNames[getDay()]`, and date-fns's "EEEE"). */
  function WeekdayName(day: int): string
  {
    DayNames[WeekdayIndex(day)]
  }

  /** One entry of the host's availability, as the calendar receives it. */
  datatype DayAvailability = DayAvailability(day: string, isActive: bool)

  /** `isDateUnavailable`: the date is unavailable unless the first entry that
      carries its weekday name is active. */
  function IsDateUnavailable(day: int, availability: seq<DayAvailability>): bool
  {
    var name := WeekdayName(day);
    match Seqs.Find(availability, (a: DayAvailability) => a.day == name)
    case None => true
    case Some(a) => !a.isActive
  }

  /** Consecutive days cycle through the seven weekdays. */
  lemma {:induction false} WeekdayAfter(day: int, k: int)
    ensures WeekdayIndex(day + k) == (WeekdayIndex(day) + k) % 7
    ensures WeekdayIndex(day + 7 * k) == WeekdayIndex(day)
  {
  }

  /** The name table is one-to-one over 0..6, so each weekday has a name of its own. */
  lemma DayNamesDistinct(i: int, j: int)
    requires 0 <= i < 7 && 0 <= j < 7 && i != j
    ensures DayNames[i] != DayNames[j]
  {
    var initials := ["Su", "Mo", "Tu", "We", "Th", "Fr", "Sa"];
    assert forall k :: 0 <= k < 7 ==> DayNames[k][..2] == initials[k];
    assert initials[i] != initials[j];
  }

  /** A date is unavailable exactly when no entry has its weekday name, or the
      first entry that has it is inactive. */
  lemma UnavailableIff(day: int, availability: seq<DayAvailability>)
    ensures IsDateUnavailable(day, availability) <==>
      ((forall i :: 0 <= i < |availability| ==> availability[i].day != WeekdayName(day)) ||
       (exists i :: 0 <= i < |availability| && availability[i].day == WeekdayName(day) && !availability[i].isActive &&
          forall j :: 0 <= j < i ==> availability[j].day != WeekdayName(day)))
  {
    var name := WeekdayName(day);
    var p := (a: DayAvailability) => a.day == name;
    var r := Seqs.FindIndex(availability, p);
    if r.Some? {
      var i := r.value;
      assert p(availability[i]);
      if !availability[i].isActive {
        assert forall j :: 0 <= j < i ==> !p(availability[j]);
      } else {
        forall k | 0 <= k < |availability| && availability[k].day == name && !availability[k].isActive
          ensures exists j :: 0 <= j < k && availability[j].day == name
        {
          assert k != i;
          assert i < k;
        }
      }
    } else {
      forall k | 0 <= k < |availability| ensures availability[k].day != name {
        assert !p(availability[k]);
      }
    }
  }

  /** Only the first entry carrying the date's weekday name matters: the entries after it can be anything. */
  lemma FirstEntryDecides(day: int, availability: seq<DayAvailability>, i: nat, rest: seq<DayAvailability>)
    requires i < |availability| && availability[i].day == WeekdayName(day)
    requires forall j :: 0 <= j < i ==> availability[j].day != WeekdayName(day)
    ensures IsDateUnavailable(day, availability[..i + 1] + rest) == !availability[i].isActive
    ensures IsDateUnavailable(day, availability) == !availability[i].isActive
  {
    var s := availability[..i + 1] + rest;
    assert s[i] == availability[i];
    assert forall j :: 0 <= j < i ==> s[j] == availability[j];
    UnavailableIff(day, s);
    UnavailableIff(day, availability);
  }

  /** Some entry of `availability` carries the weekday name `name`. */
  ghost predicate HasEntry(availability: seq<DayAvailability>, name: string)
  {
    exists i :: 0 <= i < |availability| && availability[i].day == name
  }

  /** When every weekday name has an entry and every entry is active, no date is unavailable. */
  lemma AllActiveNoneUnavailable(availability: seq<DayAvailability>, day: int)
    requires forall name :: name in DayNames ==> HasEntry(availability, name)
    requires forall i :: 0 <= i < |availability| ==> availability[i].isActive
    ensures !IsDateUnavailable(day, availability)
  {
    assert WeekdayName(day) in DayNames;
    assert HasEntry(availability, WeekdayName(day));
    UnavailableIff(day, availability);
  }
}

=== FILE: scenarios.dfy ===
/**
 * Worked examples of the slot engine on one host: availability Monday 08:00 to
 * 18:00 shown in "UTC", a server running in UTC, a Monday booking date `day`
 * (for instance 2025-01-06, epoch day 20094) and a "now" before 08:00 that day.
 */
module Scenarios {
  import opened Wrappers
  import opened TimeFormat
  import TimeTable
  import RenderCalendar

  const Email := "host@example.com"

  /** Stored times: 08:00 and 18:00 UTC (on the epoch date, which does not matter). */
  const FromTime := 8 * 3600000
  const ToTime := 18 * 3600000

  /** The host's Monday row; `grant` says whether a calendar is connected. */
  function MondayRow(grant: bool): TimeTable.AvailabilityRow
  {
    var host := if grant then TimeTable.HostUser(Some(Email), Some("grant-1"), Some("UTC"))
                else TimeTable.HostUser(None, None, Some("UTC"));
    TimeTable.AvailabilityRow("Monday", Some(FromTime), Some(ToTime), true, host)
  }

  /** The provider's answer: the given busy periods (epoch seconds) for the host. */
  function Busy(slots: seq<TimeTable.FreeBusyTimeSlot>): TimeTable.ProviderReply
  {
    TimeTable.Replied(TimeTable.CalendarResponse([TimeTable.FreeBusyData(Email, Some(slots))]))
  }

  /** The window's start on the booking date: 08:00 UTC. */
  function WindowStart(day: int): int
  {
    day * MsPerDay + 480 * MsPerMinute
  }

  /** 2025-01-06 is a Monday. */
  lemma ExampleDateIsMonday()
    ensures RenderCalendar.WeekdayName(20094) == "Monday"
  {
  }

  /** The grid has exactly `n` candidates when `n` steps reach `to` and `n - 1` do not. */
  lemma GridLength(from: int, to: int, step: int, n: int)
    requires step > 0 && n >= 1 && from + (n - 1) * step < to <= from + n * step
    ensures |TimeTable.Grid(from, to, step)| == n
  {
    var g := TimeTable.Grid(from, to, step);
    TimeTable.GridShape(from, to, step);
    assert from + (|g| - 1) * step == g[|g| - 1] < to <= from + n * step;
    TimeTable.MulMonotone(n, |g| - 1, step);
    assert from + |g| * step >= to > from + (n - 1) * step;
    TimeTable.MulMonotone(|g|, n - 1, step);
  }

  /** The Monday candidates for a duration that fits `n` times, the last one only
      partly, into the ten-hour window: `n` starts, `duration` minutes apart from 08:00. */
  lemma MondayCandidates(day: int, duration: int, n: int)
    requires duration > 0 && n >= 1 && (n - 1) * duration < 600 <= n * duration
    ensures var g := TimeTable.CandidateStarts(day, FromTime, ToTime, duration, 0);
      |g| == n && forall i :: 0 <= i < n ==> g[i] == WindowStart(day) + i * (duration * MsPerMinute)
  {
    assert TimeTable.ServerLocalDay(day, 0) == day by {
      MulDiv(day * MinutesPerDay);
      assert (day * MsPerDay) / MsPerMinute == day * MinutesPerDay;
    }
    var w := TimeTable.AvailabilityWindow(day, FromTime, ToTime);
    assert w == TimeTable.Window(WindowStart(day), day * MsPerDay + 1080 * MsPerMinute);
    var step := duration * MsPerMinute;
    assert (n - 1) * step == (n - 1) * duration * MsPerMinute;
    assert n * step == n * duration * MsPerMinute;
    GridLength(w.from, w.to, step, n);
    TimeTable.GridShape(w.from, w.to, step);
  }

  /** The slot at `WindowStart(day) + k` minutes shows as minute 480 + k in UTC. */
  lemma ShownMinute(day: int, k: int)
    requires 0 <= k < 960
    ensures FormatInTimeZone(WindowStart(day) + k * MsPerMinute, 0) == FormatHHmm(480 + k)
  {
    assert WindowStart(day) + k * MsPerMinute == WallToInstant(day, 480 + k, 0);
    WallClockOfInstant(day, 480 + k, 0);
  }

  /** The clock texts of the minutes the scenarios name. */
  lemma ClockTexts()
    ensures FormatHHmm(480) == "08:00" && FormatHHmm(510) == "08:30" && FormatHHmm(570) == "09:30"
    ensures FormatHHmm(1050) == "17:30" && FormatHHmm(1065) == "17:45" && FormatHHmm(1110) == "18:30"
  {
  }

  /** On this host, the slot list is the formatting in UTC of the free Monday candidates. */
  lemma MondaySlots(day: int, now: int, grant: bool, reply: TimeTable.ProviderReply, duration: int, zoneOffset: string -> int)
    requires RenderCalendar.WeekdayName(day) == "Monday"
    requires duration > 0 && zoneOffset("UTC") == 0
    ensures var d := TimeTable.GetData([MondayRow(grant)], day, reply);
      TimeTable.TimeTableSlots([MondayRow(grant)], day, reply, duration, now, 0, zoneOffset)
        == TimeTable.FormatAll(TimeTable.FreeSlots(TimeTable.CandidateStarts(day, FromTime, ToTime, duration, 0),
                                                   TimeTable.BusyIntervals(d.calendar), now, duration * MsPerMinute), 0)
    ensures grant && reply.Replied? ==> TimeTable.GetData([MondayRow(grant)], day, reply).calendar == reply.response
  {
    var d := TimeTable.GetData([MondayRow(grant)], day, reply);
    assert d.row == Some(MondayRow(grant));
    assert TimeTable.DisplayZone(d.row) == "UTC";
  }

  /** With a connected calendar reporting no busy period, every Monday candidate is shown. */
  lemma MondayWithoutBusy(day: int, now: int, duration: int, zoneOffset: string -> int)
    requires RenderCalendar.WeekdayName(day) == "Monday" && now < WindowStart(day)
    requires duration > 0 && zoneOffset("UTC") == 0
    ensures TimeTable.TimeTableSlots([MondayRow(true)], day, Busy([]), duration, now, 0, zoneOffset)
         == TimeTable.FormatAll(TimeTable.CandidateStarts(day, FromTime, ToTime, duration, 0), 0)
  {
    var g := TimeTable.CandidateStarts(day, FromTime, ToTime, duration, 0);
    MondaySlots(day, now, true, Busy([]), duration, zoneOffset);
    CandidatesFromWindowStart(day, duration);
    assert TimeTable.BusyIntervals(Busy([]).response) == [];
    TimeTable.FreeSlotsAllKept(g, [], now, duration * MsPerMinute);
  }

  /** Every Monday candidate starts at or after 08:00 on the booking date. */
  lemma CandidatesFromWindowStart(day: int, duration: int)
    requires duration > 0
    ensures var g := TimeTable.CandidateStarts(day, FromTime, ToTime, duration, 0);
      forall i :: 0 <= i < |g| ==> g[i] >= WindowStart(day)
  {
    var g := TimeTable.CandidateStarts(day, FromTime, ToTime, duration, 0);
    assert TimeTable.ServerLocalDay(day, 0) == day by {
      MulDiv(day * MinutesPerDay);
      assert (day * MsPerDay) / MsPerMinute == day * MinutesPerDay;
    }
    var w := TimeTable.AvailabilityWindow(day, FromTime, ToTime);
    assert w.from == WindowStart(day);
    forall i | 0 <= i < |g| ensures g[i] >= WindowStart(day) {
      TimeTable.GridMembers(w.from, w.to, duration * MsPerMinute, g[i]);
    }
  }

  /** The 30-minute Monday candidates show as minutes 480, 510, ... in UTC. */
  lemma HalfHourGridShown(day: int)
    ensures var r := TimeTable.FormatAll(TimeTable.CandidateStarts(day, FromTime, ToTime, 30, 0), 0);
      |r| == 20 && forall i :: 0 <= i < 20 ==> r[i] == FormatHHmm(480 + 30 * i)
  {
    var g := TimeTable.CandidateStarts(day, FromTime, ToTime, 30, 0);
    MondayCandidates(day, 30, 20);
    var r := TimeTable.FormatAll(g, 0);
    forall i | 0 <= i < 20 ensures r[i] == FormatHHmm(480 + 30 * i) {
      ShownMinute(day, 30 * i);
    }
  }

  /** Scenario A: connected calendar with no busy periods, 30-minute meetings: twenty
      slots 08:00, 08:30, ..., 17:30 (minutes 480, 510, ..., 1050; see ClockTexts). */
  lemma ScenarioA(day: int, now: int, zoneOffset: string -> int)
    requires RenderCalendar.WeekdayName(day) == "Monday" && now < WindowStart(day)
    requires zoneOffset("UTC") == 0
    ensures var r := TimeTable.TimeTableSlots([MondayRow(true)], day, Busy([]), 30, now, 0, zoneOffset);
      && |r| == 20
      && (forall i :: 0 <= i < 20 ==> r[i] == FormatHHmm(480 + 30 * i))
  {
    var g := TimeTable.CandidateStarts(day, FromTime, ToTime, 30, 0);
    MondayCandidates(day, 30, 20);
    MondayWithoutBusy(day, now, 30, zoneOffset);
    HalfHourGridShown(day);
  }

  /** The busy period 09:00-09:30 on `day`, as the provider reports it (epoch seconds). */
  function NineOClock(day: int): seq<TimeTable.FreeBusyTimeSlot>
  {
    [TimeTable.FreeBusyTimeSlot(day * 86400 + 9 * 3600, day * 86400 + 9 * 3600 + 1800)]
  }

  /** Against the 09:00-09:30 busy period, only the third half-hour candidate (09:00) overlaps. */
  lemma NineOClockRemovesThird(day: int, now: int)
    requires now < WindowStart(day)
    ensures var g := TimeTable.CandidateStarts(day, FromTime, ToTime, 30, 0);
      var intervals := TimeTable.BusyIntervals(TimeTable.CalendarResponse([TimeTable.FreeBusyData(Email, Some(NineOClock(day)))]));
      |g| == 20 && TimeTable.FreeSlots(g, intervals, now, 30 * MsPerMinute) == g[..2] + g[3..]
  {
    var intervals := TimeTable.BusyIntervals(TimeTable.CalendarResponse([TimeTable.FreeBusyData(Email, Some(NineOClock(day)))]));
    var b := TimeTable.Interval(WindowStart(day) + 60 * MsPerMinute, WindowStart(day) + 90 * MsPerMinute);
    assert intervals == [b];
    var step := 30 * MsPerMinute;
    var g := TimeTable.CandidateStarts(day, FromTime, ToTime, 30, 0);
    MondayCandidates(day, 30, 20);
    forall i | 0 <= i < 20 ensures TimeTable.IsFree(g[i], intervals, now, step) <==> i != 2 {
      TimeTable.OverlapIsIntersection(g[i], g[i] + step, b);
      assert g[i] == WindowStart(day) + i * step;
      assert TimeTable.Overlaps(g[i], g[i] + step, b) <==> i == 2;
      assert intervals[0] == b;
    }
    assert g == g[..2] + [g[2]] + g[3..];
    TimeTable.FreeSlotsAppend(g[..2] + [g[2]], g[3..], intervals, now, step);
    TimeTable.FreeSlotsAppend(g[..2], [g[2]], intervals, now, step);
    TimeTable.FreeSlotsAllKept(g[..2], intervals, now, step);
    TimeTable.FreeSlotsAllKept(g[3..], intervals, now, step);
  }

  /** Scenario B: one busy period 09:00-09:30 removes exactly the 09:00 slot from
      scenario A's list; the 08:30 slot, which ends when the busy period starts, and
      the 09:30 slot, which starts when it ends, are kept. */
  lemma ScenarioB(day: int, now: int, zoneOffset: string -> int)
    requires RenderCalendar.WeekdayName(day) == "Monday" && now < WindowStart(day)
    requires zoneOffset("UTC") == 0
    ensures var a := TimeTable.TimeTableSlots([MondayRow(true)], day, Busy([]), 30, now, 0, zoneOffset);
      var r := TimeTable.TimeTableSlots([MondayRow(true)], day, Busy(NineOClock(day)), 30, now, 0, zoneOffset);
      && |a| == 20 && a[2] == FormatHHmm(540)
      && r == a[..2] + a[3..]
  {
    var intervals := TimeTable.BusyIntervals(TimeTable.CalendarResponse([TimeTable.FreeBusyData(Email, Some(NineOClock(day)))]));
    var g := TimeTable.CandidateStarts(day, FromTime, ToTime, 30, 0);
    ScenarioA(day, now, zoneOffset);
    NineOClockRemovesThird(day, now);
    MondayWithoutBusy(day, now, 30, zoneOffset);
    MondaySlots(day, now, true, Busy(NineOClock(day)), 30, zoneOffset);
    var a := TimeTable.FormatAll(g, 0);
    var r := TimeTable.FormatAll(g[..2] + g[3..], 0);
    assert r == a[..2] + a[3..];
  }

  /** Scenario C: without a connected calendar the provider is not asked, so whatever
      it would have answered, the list is scenario A's full grid (fail-open). */
  lemma ScenarioC(day: int, now: int, reply: TimeTable.ProviderReply, zoneOffset: string -> int)
    requires RenderCalendar.WeekdayName(day) == "Monday"
    requires zoneOffset("UTC") == 0
    ensures TimeTable.TimeTableSlots([MondayRow(false)], day, reply, 30, now, 0, zoneOffset)
         == TimeTable.TimeTableSlots([MondayRow(true)], day, Busy([]), 30, now, 0, zoneOffset)
  {
    var dc := TimeTable.GetData([MondayRow(false)], day, reply);
    var da := TimeTable.GetData([MondayRow(true)], day, Busy([]));
    assert dc.row == Some(MondayRow(false)) && da.row == Some(MondayRow(true));
    assert TimeTable.BusyIntervals(dc.calendar) == [] == TimeTable.BusyIntervals(da.calendar);
  }

  /** The 45-minute Monday candidates show as minutes 480, 525, ... in UTC. */
  lemma ThreeQuarterGridShown(day: int)
    ensures var r := TimeTable.FormatAll(TimeTable.CandidateStarts(day, FromTime, ToTime, 45, 0), 0);
      |r| == 14 && forall i :: 0 <= i < 14 ==> r[i] == FormatHHmm(480 + 45 * i)
  {
    var g := TimeTable.CandidateStarts(day, FromTime, ToTime, 45, 0);
    MondayCandidates(day, 45, 14);
    var r := TimeTable.FormatAll(g, 0);
    forall i | 0 <= i < 14 ensures r[i] == FormatHHmm(480 + 45 * i) {
      ShownMinute(day, 45 * i);
    }
  }

  /** Scenario D: 45-minute meetings on the same window give fourteen slots, 08:00 to
      17:45 (minute 480 + 45 * 13 = 1065); the last ends at 18:30, after the window's
      end, and no slot starts at or after 18:00. */
  lemma ScenarioD(day: int, now: int, zoneOffset: string -> int)
    requires RenderCalendar.WeekdayName(day) == "Monday" && now < WindowStart(day)
    requires zoneOffset("UTC") == 0
    ensures var r := TimeTable.TimeTableSlots([MondayRow(true)], day, Busy([]), 45, now, 0, zoneOffset);
      && |r| == 14
      && (forall i :: 0 <= i < 14 ==> r[i] == FormatHHmm(480 + 45 * i))
  {
    var g := TimeTable.CandidateStarts(day, FromTime, ToTime, 45, 0);
    MondayCandidates(day, 45, 14);
    MondayWithoutBusy(day, now, 45, zoneOffset);
    ThreeQuarterGridShown(day);
  }
}

=== FILE: seqs.dfy ===
/** Search in a list, as `Array.prototype.find` and a database `findFirst` do it,
    and the stable sort by an integer key that `Array.prototype.sort` performs. */
module Seqs {
  import opened Wrappers

  /** Index of the first element of `xs` that satisfies `p`, or None when there is none. */
  function FindIndex<T>(xs: seq<T>, p: T -> bool): (r: Option<nat>)
    ensures r.Some? ==> r.value < |xs| && p(xs[r.value])
    ensures r.Some? ==> forall j :: 0 <= j < r.value ==> !p(xs[j])
    ensures r.None? ==> forall j :: 0 <= j < |xs| ==> !p(xs[j])
    decreases |xs|
  {
    if |xs| == 0 then None
    else if p(xs[0]) then Some(0)
    else match FindIndex(xs[1..], p)
      case None => None
      case Some(i) => Some(i + 1)
  }

  /** The first element of `xs` that satisfies `p` (`xs.find(p)`). */
  function Find<T>(xs: seq<T>, p: T -> bool): Option<T>
  {
    match FindIndex(xs, p)
    case None => None
    case Some(i) => Some(xs[i])
  }

  /** Two lists whose elements agree position by position on the tested property
      give the same first index. */
  lemma {:induction false} FindIndexRespects<T, U>(xs: seq<T>, ys: seq<U>, p: T -> bool, q: U -> bool)
    requires |xs| == |ys|
    requires forall i :: 0 <= i < |xs| ==> p(xs[i]) == q(ys[i])
    ensures FindIndex(xs, p) == FindIndex(ys, q)
    decreases |xs|
  {
    if |xs| > 0 && !p(xs[0]) {
      FindIndexRespects(xs[1..], ys[1..], p, q);
    }
  }

  // ---------------------------------------------------------------- stable sort by key

  /** Keys never decrease along `s`. */
  ghost predicate SortedBy<T>(s: seq<T>, key: T -> int)
  {
    forall i, j :: 0 <= i < j < |s| ==> key(s[i]) <= key(s[j])
  }

  /** The elements of `s` whose key is `k`, in their order. */
  function WithKey<T>(s: seq<T>, key: T -> int, k: int): seq<T>
  {
    if |s| == 0 then []
    else (if key(s[0]) == k then [s[0]] else []) + WithKey(s[1..], key, k)
  }

  /** Puts `x` in front of the first element of `s` whose key is not smaller. */
  function InsertBy<T>(x: T, s: seq<T>, key: T -> int): seq<T>
  {
    if |s| == 0 then [x]
    else if key(x) <= key(s[0]) then [x] + s
    else [s[0]] + InsertBy(x, s[1..], key)
  }

  /** Stable insertion sort by `key`. */
  function SortBy<T>(s: seq<T>, key: T -> int): seq<T>
  {
    if |s| == 0 then [] else InsertBy(s[0], SortBy(s[1..], key), key)
  }

  lemma {:induction false} InsertByMultiset<T>(x: T, s: seq<T>, key: T -> int)
    ensures multiset(InsertBy(x, s, key)) == multiset(s) + multiset{x}
  {
    if |s| > 0 && key(x) > key(s[0]) {
      var t := InsertBy(x, s[1..], key);
      InsertByMultiset(x, s[1..], key);
      assert InsertBy(x, s, key) == [s[0]] + t;
      assert multiset([s[0]] + t) == multiset{s[0]} + multiset(t);
      assert s == [s[0]] + s[1..];
      assert multiset(s) == multiset{s[0]} + multiset(s[1..]);
    }
  }

  /** An element whose key bounds every key of a sorted list from below can go in front of it. */
  lemma ConsSorted<T>(y: T, t: seq<T>, key: T -> int)
    requires SortedBy(t, key)
    requires forall j :: 0 <= j < |t| ==> key(y) <= key(t[j])
    ensures SortedBy([y] + t, key)
  {
    var r := [y] + t;
    forall i, j | 0 <= i < j < |r| ensures key(r[i]) <= key(r[j]) {
      assert r[j] == t[j - 1];
      if i > 0 {
        assert r[i] == t[i - 1];
      }
    }
  }

  /** A lower bound on the keys of `x` and of `s` bounds the keys of the insertion. */
  lemma {:induction false} InsertByLowerBound<T>(x: T, s: seq<T>, key: T -> int, b: int)
    requires b <= key(x)
    requires forall j :: 0 <= j < |s| ==> b <= key(s[j])
    ensures forall j :: 0 <= j < |InsertBy(x, s, key)| ==> b <= key(InsertBy(x, s, key)[j])
  {
    var r := InsertBy(x, s, key);
    if |s| > 0 && key(x) > key(s[0]) {
      InsertByLowerBound(x, s[1..], key, b);
      var t := InsertBy(x, s[1..], key);
      assert r == [s[0]] + t;
      forall j | 0 < j < |r| ensures b <= key(r[j]) {
        assert r[j] == t[j - 1];
      }
    } else if |s| > 0 {
      forall j | 0 < j < |r| ensures b <= key(r[j]) {
        assert r[j] == s[j - 1];
      }
    }
  }

  lemma {:induction false} InsertBySorted<T>(x: T, s: seq<T>, key: T -> int)
    requires SortedBy(s, key)
    ensures SortedBy(InsertBy(x, s, key), key)
  {
    if |s| == 0 {
    } else if key(x) <= key(s[0]) {
      ConsSorted(x, s, key);
    } else {
      var t := InsertBy(x, s[1..], key);
      assert SortedBy(s[1..], key) by {
        forall i, j | 0 <= i < j < |s[1..]| ensures key(s[1..][i]) <= key(s[1..][j]) {
          assert s[1..][i] == s[i + 1] && s[1..][j] == s[j + 1];
        }
      }
      InsertBySorted(x, s[1..], key);
      forall j | 0 <= j < |s[1..]| ensures key(s[0]) <= key(s[1..][j]) {
        assert s[1..][j] == s[j + 1];
      }
      InsertByLowerBound(x, s[1..], key, key(s[0]));
      ConsSorted(s[0], t, key);
    }
  }

  /** The elements of key `k` in a list with `y` in front. */
  lemma WithKeyCons<T>(y: T, t: seq<T>, key: T -> int, k: int)
    ensures WithKey([y] + t, key, k) == (if key(y) == k then [y] else []) + WithKey(t, key, k)
  {
    assert ([y] + t)[1..] == t;
  }

  /** The step of `InsertByWithKey` where `x` goes past the head `y` of the list:
      `x` and `y` have different keys, so at most one of them joins the list of `k`. */
  lemma InsertPastHead<T>(x: T, y: T, t: seq<T>, u: seq<T>, key: T -> int, k: int)
    requires key(y) < key(x)
    requires WithKey(u, key, k) == (if key(x) == k then [x] else []) + WithKey(t, key, k)
    ensures WithKey([y] + u, key, k) == (if key(x) == k then [x] else []) + WithKey([y] + t, key, k)
  {
    WithKeyCons(y, u, key, k);
    WithKeyCons(y, t, key, k);
  }

  /** Inserting `x` puts it first among the elements of its own key; the lists of the other keys do not change. */
  lemma {:induction false} InsertByWithKey<T>(x: T, s: seq<T>, key: T -> int, k: int)
    ensures WithKey(InsertBy(x, s, key), key, k) == (if key(x) == k then [x] else []) + WithKey(s, key, k)
  {
    if |s| == 0 || key(x) <= key(s[0]) {
      WithKeyCons(x, s, key, k);
    } else {
      InsertByWithKey(x, s[1..], key, k);
      InsertPastHead(x, s[0], s[1..], InsertBy(x, s[1..], key), key, k);
      assert s == [s[0]] + s[1..];
    }
  }

  /** The sort returns a sorted permutation of its input and is stable: the elements
      of each key keep their relative order. */
  lemma {:induction false} SortBySpec<T>(s: seq<T>, key: T -> int)
    ensures SortedBy(SortBy(s, key), key)
    ensures multiset(SortBy(s, key)) == multiset(s)
    ensures forall k :: WithKey(SortBy(s, key), key, k) == WithKey(s, key, k)
  {
    if |s| > 0 {
      var t := SortBy(s[1..], key);
      SortBySpec(s[1..], key);
      InsertBySorted(s[0], t, key);
      InsertByMultiset(s[0], t, key);
      forall k ensures WithKey(SortBy(s, key), key, k) == WithKey(s, key, k) {
        InsertByWithKey(s[0], t, key, k);
      }
      assert s == [s[0]] + s[1..];
    }
  }

  /** Sortedness depends on the keys only. */
  lemma SortedByCongruent<T>(s: seq<T>, t: seq<T>, key: T -> int)
    requires SortedBy(s, key) && |s| == |t|
    requires forall i :: 0 <= i < |s| ==> key(s[i]) == key(t[i])
    ensures SortedBy(t, key)
  {
  }

  /** Sorting a sorted list changes nothing. */
  lemma {:induction false} SortSortedIsIdentity<T>(s: seq<T>, key: T -> int)
    requires SortedBy(s, key)
    ensures SortBy(s, key) == s
  {
    if |s| > 0 {
      assert SortedBy(s[1..], key) by {
        forall i, j | 0 <= i < j < |s[1..]| ensures key(s[1..][i]) <= key(s[1..][j]) {
          assert s[1..][i] == s[i + 1] && s[1..][j] == s[j + 1];
        }
      }
      SortSortedIsIdentity(s[1..], key);
      if |s| > 1 {
        assert key(s[0]) <= key(s[1..][0]);
      }
    }
  }
}

=== FILE: time_format.dfy ===
/**
 * Instants, wall-clock minutes and the "HH:mm" text form that the booking
 * page uses for slots.
 *
 * An instant is an integer number of milliseconds since the Unix epoch (what
 * a JavaScript `Date` holds). A zone is a fixed offset, in minutes ahead of
 * UTC; daylight-saving rules are not modelled. A civil date is an epoch day
 * number (day 0 is 1970-01-01).
 */
module TimeFormat {
  import opened Wrappers

  const MsPerSecond := 1000
  const MsPerMinute := 60000
  const MinutesPerDay := 1440
  const MsPerDay := 86400000

  /** Wall-clock minute of the day (0..1439) at which instant `t` falls in a zone
      `offset` minutes ahead of UTC. Division floors, as the calendar does for
      instants before the epoch. */
  function MinuteOfDay(t: int, offset: int): (m: int)
    ensures 0 <= m < MinutesPerDay
  {
    (t / MsPerMinute + offset) % MinutesPerDay
  }

  /** Civil date (epoch day) on which instant `t` falls in a zone `offset` minutes ahead of UTC. */
  function LocalDay(t: int, offset: int): int
  {
    (t / MsPerMinute + offset) / MinutesPerDay
  }

  /** The instant at which the wall clock of a zone `offset` minutes ahead of UTC
      shows minute `m` of civil date `day`. */
  function WallToInstant(day: int, m: int, offset: int): int
  {
    (day * MinutesPerDay + m - offset) * MsPerMinute
  }

  function Digit(d: int): char
    requires 0 <= d < 10
  {
    ('0' as int + d) as char
  }

  predicate IsDigit(c: char)
  {
    '0' <= c <= '9'
  }

  function DigitValue(c: char): int
    requires IsDigit(c)
  {
    c as int - '0' as int
  }

  /** Two-digit hour, a colon, two-digit minute: the "HH:mm" pattern. */
  function FormatHHmm(m: int): (s: string)
    requires 0 <= m < MinutesPerDay
  {
    [Digit(m / 60 / 10), Digit(m / 60 % 10), ':', Digit(m % 60 / 10), Digit(m % 60 % 10)]
  }

  /** Reads an "HH:mm" text back to a minute of the day; None for any text that
      is not two digits of hour 00..23, a colon and two digits of minute 00..59. */
  function ParseHHmm(s: string): Option<int>
  {
    if |s| != 5 || s[2] != ':' || !IsDigit(s[0]) || !IsDigit(s[1]) || !IsDigit(s[3]) || !IsDigit(s[4]) then None
    else
      var hh := DigitValue(s[0]) * 10 + DigitValue(s[1]);
      var mm := DigitValue(s[3]) * 10 + DigitValue(s[4]);
      if hh <= 23 && mm <= 59 then Some(hh * 60 + mm) else None
  }

  /** `formatInTimeZone(t, zone, "HH:mm")` for a zone `offset` minutes ahead of UTC. */
  function FormatInTimeZone(t: int, offset: int): (s: string)
  {
    FormatHHmm(MinuteOfDay(t, offset))
  }

  lemma DigitRoundTrip(d: int)
    requires 0 <= d < 10
    ensures IsDigit(Digit(d)) && DigitValue(Digit(d)) == d
  {
  }

  /** Reading a formatted minute gives the minute back. */
  lemma ParseFormatHHmm(m: int)
    requires 0 <= m < MinutesPerDay
    ensures ParseHHmm(FormatHHmm(m)) == Some(m)
  {
    var s := FormatHHmm(m);
    var hh, mm := m / 60, m % 60;
    DigitRoundTrip(hh / 10);
    DigitRoundTrip(hh % 10);
    DigitRoundTrip(mm / 10);
    DigitRoundTrip(mm % 10);
    assert DigitValue(s[0]) * 10 + DigitValue(s[1]) == hh;
    assert DigitValue(s[3]) * 10 + DigitValue(s[4]) == mm;
  }

  /** Every text the reader accepts is exactly the formatting of the minute it reads. */
  lemma FormatParseHHmm(s: string)
    requires ParseHHmm(s).Some?
    ensures 0 <= ParseHHmm(s).value < MinutesPerDay
    ensures FormatHHmm(ParseHHmm(s).value) == s
  {
    var h0, h1, m0, m1 := DigitValue(s[0]), DigitValue(s[1]), DigitValue(s[3]), DigitValue(s[4]);
    var m := ParseHHmm(s).value;
    assert m == (h0 * 10 + h1) * 60 + (m0 * 10 + m1);
    assert m / 60 == h0 * 10 + h1 && m % 60 == m0 * 10 + m1;
    var t := FormatHHmm(m);
    assert Digit(h0) == s[0] && Digit(h1) == s[1] && Digit(m0) == s[3] && Digit(m1) == s[4];
    assert t[0] == s[0] && t[1] == s[1] && t[2] == s[2] && t[3] == s[3] && t[4] == s[4];
  }

  lemma MulDiv(x: int)
    ensures (x * MsPerMinute) / MsPerMinute == x
  {
  }

  /** A minute-aligned instant is recovered from its local date and wall-clock minute,
      in any fixed-offset zone. */
  lemma InstantFromWallClock(t: int, offset: int)
    requires t % MsPerMinute == 0
    ensures WallToInstant(LocalDay(t, offset), MinuteOfDay(t, offset), offset) == t
  {
    var x := t / MsPerMinute + offset;
    assert x == LocalDay(t, offset) * MinutesPerDay + MinuteOfDay(t, offset);
  }

  /** The wall clock of a zone shows, at `WallToInstant(day, m, offset)`, minute `m` of `day`. */
  lemma WallClockOfInstant(day: int, m: int, offset: int)
    requires 0 <= m < MinutesPerDay
    ensures MinuteOfDay(WallToInstant(day, m, offset), offset) == m
    ensures LocalDay(WallToInstant(day, m, offset), offset) == day
  {
    MulDiv(day * MinutesPerDay + m - offset);
  }
}

=== FILE: time_table.dfy ===
/**
 * The booking-slot engine of the host's booking page: the day's availability
 * row and busy data (getData), the window, the candidate grid, the past and
 * overlap filters and the "HH:mm" formatting (calculateAvailableTimeSlots).
 *
 * Instants are milliseconds since the epoch; the provider's busy times are
 * seconds since the epoch. `tzOffset` is the server's `getTimezoneOffset()`
 * (minutes BEHIND UTC, so a zone at UTC-5 has tzOffset 300); display zones
 * are offsets in minutes AHEAD of UTC, looked up by name through `zoneOffset`.
 */
module TimeTable {
  import opened Wrappers
  import opened TimeFormat
  import Seqs
  import RenderCalendar

  // ---------------------------------------------------------------- data

  /** The host fields getData selects. */
  datatype HostUser = HostUser(grantEmail: Option<string>, grantId: Option<string>, timezone: Option<string>)

  /** A stored availability row with its owner. `fromTime` and `toTime` are stored
      instants whose UTC time of day carries the wall-clock value. */
  datatype AvailabilityRow = AvailabilityRow(day: string, fromTime: Option<int>, toTime: Option<int>, isActive: bool, user: HostUser)

  /** One busy period reported by the calendar provider, in epoch seconds. */
  datatype FreeBusyTimeSlot = FreeBusyTimeSlot(startTime: int, endTime: int)
  datatype FreeBusyData = FreeBusyData(email: string, timeSlots: Option<seq<FreeBusyTimeSlot>>)
  datatype CalendarResponse = CalendarResponse(data: seq<FreeBusyData>)

  /** What the provider's free/busy call does when it is made: answer, or throw. */
  datatype ProviderReply = Replied(response: CalendarResponse) | Failed

  /** The free/busy query getData sends (window in epoch seconds). */
  datatype FreeBusyRequest = FreeBusyRequest(identifier: string, startTime: int, endTime: int, emails: seq<string>)

  /** getData's result: the row found (if any), the query sent (if any), the calendar data used. */
  datatype DayData = DayData(row: Option<AvailabilityRow>, request: Option<FreeBusyRequest>, calendar: CalendarResponse)

  /** A half-open interval of instants (ms). */
  datatype Interval = Interval(start: int, end: int)

  /** The availability window `[from, to)` (ms). */
  datatype Window = Window(from: int, to: int)

  // ---------------------------------------------------------------- getData

  /** JavaScript truthiness of an optional string: present and not empty. */
  predicate Truthy(s: Option<string>)
  {
    s.Some? && s.value != ""
  }

  /** The placeholder provider answer: one entry with no busy periods. */
  function EmptyCalendar(email: string): CalendarResponse
  {
    CalendarResponse([FreeBusyData(email, Some([]))])
  }

  /** The first row whose day is the weekday name of `day` (`findFirst` on "EEEE"). */
  function FindRow(rows: seq<AvailabilityRow>, day: int): Option<AvailabilityRow>
  {
    Seqs.Find(rows, (r: AvailabilityRow) => r.day == RenderCalendar.WeekdayName(day))
  }

  /** getData: the row for the date's weekday; the provider is asked only when the
      host has a grant id and a grant e-mail, and any other case, as well as a
      provider failure, yields the placeholder with no busy periods. */
  function GetData(rows: seq<AvailabilityRow>, day: int, reply: ProviderReply): (d: DayData)
    ensures d.row == FindRow(rows, day)
    ensures d.request.Some? <==> (d.row.Some? && Truthy(d.row.value.user.grantId) && Truthy(d.row.value.user.grantEmail))
    ensures d.request.Some? ==>
      && d.request.value.identifier == d.row.value.user.grantId.value
      && d.request.value.emails == [d.row.value.user.grantEmail.value]
      && d.request.value.startTime == day * 86400
      && d.request.value.endTime == d.request.value.startTime + 86399
    ensures d.request.Some? && reply.Replied? ==> d.calendar == reply.response
    ensures d.request.None? || reply.Failed? ==> BusyIntervals(d.calendar) == []
  {
    var row := FindRow(rows, day);
    if row.None? || !Truthy(row.value.user.grantId) || !Truthy(row.value.user.grantEmail) then
      var email := if row.Some? && Truthy(row.value.user.grantEmail) then row.value.user.grantEmail.value else "";
      DayData(row, None, EmptyCalendar(email))
    else
      var user := row.value.user;
      var startOfDay := day * MsPerDay;
      var endOfDay := startOfDay + ((23 * 60 + 59) * 60 + 59) * MsPerSecond;
      var request := FreeBusyRequest(user.grantId.value, startOfDay / MsPerSecond, endOfDay / MsPerSecond, [user.grantEmail.value]);
      var calendar := match reply
        case Replied(response) => response
        case Failed => EmptyCalendar(user.grantEmail.value);
      DayData(row, Some(request), calendar)
  }

  /** The display zone name: the host's zone, or "UTC" when it is unset or empty. */
  function DisplayZone(row: Option<AvailabilityRow>): (zone: string)
    ensures zone != ""
    ensures row.Some? && Truthy(row.value.user.timezone) ==> zone == row.value.user.timezone.value
    ensures !(row.Some? && Truthy(row.value.user.timezone)) ==> zone == "UTC"
  {
    if row.Some? && Truthy(row.value.user.timezone) then row.value.user.timezone.value else "UTC"
  }

  // ---------------------------------------------------------------- busy periods

  /** The busy periods of the FIRST provider entry, converted from seconds to
      instants; a missing entry or a missing list gives none. */
  function BusyIntervals(calendar: CalendarResponse): seq<Interval>
  {
    if |calendar.data| == 0 || calendar.data[0].timeSlots.None? then []
    else
      var ts := calendar.data[0].timeSlots.value;
      seq(|ts|, i requires 0 <= i < |ts| => Interval(ts[i].startTime * MsPerSecond, ts[i].endTime * MsPerSecond))
  }

  // ---------------------------------------------------------------- window

  /** The civil date that the server's local calendar gives to `new Date("yyyy-MM-dd")`,
      which is UTC midnight of `day`. */
  function ServerLocalDay(day: int, tzOffset: int): int
  {
    LocalDay(day * MsPerDay, -tzOffset)
  }

  /** `new Date(y, m, d, hours, minutes)` on a server whose getTimezoneOffset() is `tzOffset`. */
  function LocalDateTime(day: int, hours: int, minutes: int, tzOffset: int): int
  {
    WallToInstant(day, hours * 60 + minutes, -tzOffset)
  }

  /** The availability window on civil date `day`: each stored time's UTC hour and
      minute placed at UTC on that date; the end moved a day later when it is
      strictly earlier than the start. */
  function AvailabilityWindow(day: int, fromTime: int, toTime: int): Window
  {
    var from := day * MsPerDay + MinuteOfDay(fromTime, 0) * MsPerMinute;
    var to := day * MsPerDay + MinuteOfDay(toTime, 0) * MsPerMinute;
    if to < from then Window(from, to + MsPerDay) else Window(from, to)
  }

  // ---------------------------------------------------------------- grid

  /** Candidate slot starts: `from`, `from + step`, ... while strictly before `to`. */
  function Grid(from: int, to: int, step: int): seq<int>
    requires step > 0
    decreases if from < to then to - from else 0
  {
    if from < to then [from] + Grid(from + step, to, step) else []
  }

  /** Candidate grid of a window, generated as the source's loop does it. */
  method GenerateGrid(from: int, to: int, step: int) returns (allSlots: seq<int>)
    requires step > 0
    ensures allSlots == Grid(from, to, step)
  {
    allSlots := [];
    var currentSlot := from;
    assert allSlots + Grid(currentSlot, to, step) == Grid(from, to, step);
    while currentSlot < to
      invariant allSlots + Grid(currentSlot, to, step) == Grid(from, to, step)
      decreases if currentSlot < to then to - currentSlot else 0
    {
      allSlots := allSlots + [currentSlot];
      currentSlot := currentSlot + step;
    }
  }

  // ---------------------------------------------------------------- filters

  /** The source's six-clause overlap test between slot `[slot, slotEnd]` and a busy period. */
  predicate Overlaps(slot: int, slotEnd: int, busy: Interval)
  {
    || (slot > busy.start && slot < busy.end)
    || (slotEnd > busy.start && slotEnd < busy.end)
    || (slot < busy.start && slotEnd > busy.end)
    || (busy.start < slot && busy.end > slotEnd)
    || slot == busy.start
    || slotEnd == busy.end
  }

  /** A slot is kept when it starts strictly after `now` and overlaps no busy period. */
  predicate IsFree(slot: int, busy: seq<Interval>, now: int, step: int)
  {
    slot > now && !(exists j :: 0 <= j < |busy| && Overlaps(slot, slot + step, busy[j]))
  }

  /** `allSlots.filter(...)`: the candidates that are free, in their order. */
  function FreeSlots(slots: seq<int>, busy: seq<Interval>, now: int, step: int): seq<int>
  {
    if |slots| == 0 then []
    else (if IsFree(slots[0], busy, now, step) then [slots[0]] else []) + FreeSlots(slots[1..], busy, now, step)
  }

  /** `freeSlots.map(slot => formatInTimeZone(slot, timezone, "HH:mm"))`. */
  function FormatAll(slots: seq<int>, offset: int): seq<string>
  {
    seq(|slots|, i requires 0 <= i < |slots| => FormatInTimeZone(slots[i], offset))
  }

  // ---------------------------------------------------------------- the engine

  /** The candidate starts for the day: the grid of the window on the server-local date. */
  function CandidateStarts(day: int, fromTime: int, toTime: int, duration: int, tzOffset: int): seq<int>
    requires duration > 0
  {
    var w := AvailabilityWindow(ServerLocalDay(day, tzOffset), fromTime, toTime);
    Grid(w.from, w.to, duration * MsPerMinute)
  }

  /** What calculateAvailableTimeSlots returns, as one expression. */
  function AvailableSlots(day: int, fromTime: Option<int>, toTime: Option<int>, calendar: CalendarResponse,
                          duration: int, displayOffset: int, tzOffset: int, now: int): seq<string>
    requires duration > 0
  {
    if fromTime.None? || toTime.None? then []
    else
      var starts := CandidateStarts(day, fromTime.value, toTime.value, duration, tzOffset);
      FormatAll(FreeSlots(starts, BusyIntervals(calendar), now, duration * MsPerMinute), displayOffset)
  }

  /** calculateAvailableTimeSlots, step by step: the window's Date objects are built in
      server-local time and shifted back by the zone offset, the end is moved a day
      on wraparound, the grid loop runs, and the survivors of the filters are formatted. */
  method CalculateAvailableTimeSlots(date: int, fromTime: Option<int>, toTime: Option<int>, nylasData: CalendarResponse,
                                     duration: int, displayOffset: int, tzOffset: int, now: int)
    returns (slots: seq<string>)
    requires duration > 0
    ensures fromTime.None? || toTime.None? ==> slots == []
    ensures slots == AvailableSlots(date, fromTime, toTime, nylasData, duration, displayOffset, tzOffset, now)
  {
    if fromTime.None? || toTime.None? {
      return [];
    }
    var selectedDay := ServerLocalDay(date, tzOffset);
    var fromMinute := MinuteOfDay(fromTime.value, 0);
    var toMinute := MinuteOfDay(toTime.value, 0);

    var availableFromUtc := LocalDateTime(selectedDay, fromMinute / 60, fromMinute % 60, tzOffset);
    availableFromUtc := availableFromUtc - tzOffset * MsPerMinute;
    var availableToUtc := LocalDateTime(selectedDay, toMinute / 60, toMinute % 60, tzOffset);
    availableToUtc := availableToUtc - tzOffset * MsPerMinute;
    if availableToUtc < availableFromUtc {
      availableToUtc := availableToUtc + MsPerDay;
    }
    assert Window(availableFromUtc, availableToUtc) == AvailabilityWindow(selectedDay, fromTime.value, toTime.value);

    var busySlots := BusyIntervals(nylasData);
    var allSlots := GenerateGrid(availableFromUtc, availableToUtc, duration * MsPerMinute);
    var freeSlots := FreeSlots(allSlots, busySlots, now, duration * MsPerMinute);
    slots := FormatAll(freeSlots, displayOffset);
  }

  /** The whole server side of the booking page's time list, as one expression. */
  function TimeTableSlots(rows: seq<AvailabilityRow>, day: int, reply: ProviderReply, duration: int,
                          now: int, tzOffset: int, zoneOffset: string -> int): seq<string>
    requires duration > 0
  {
    var d := GetData(rows, day, reply);
    var fromTime := if d.row.Some? then d.row.value.fromTime else None;
    var toTime := if d.row.Some? then d.row.value.toTime else None;
    AvailableSlots(day, fromTime, toTime, d.calendar, duration, zoneOffset(DisplayZone(d.row)), tzOffset, now)
  }

  /** TimeTable: fetch the day's data, then compute the host-zone slot list. */
  method TimeTable(rows: seq<AvailabilityRow>, day: int, reply: ProviderReply, duration: int,
                   now: int, tzOffset: int, zoneOffset: string -> int)
    returns (availableSlotsHostTz: seq<string>)
    requires duration > 0
    ensures FindRow(rows, day).None? ==> availableSlotsHostTz == []
    ensures availableSlotsHostTz == TimeTableSlots(rows, day, reply, duration, now, tzOffset, zoneOffset)
  {
    var d := GetData(rows, day, reply);
    var fromTime := if d.row.Some? then d.row.value.fromTime else None;
    var toTime := if d.row.Some? then d.row.value.toTime else None;
    availableSlotsHostTz := CalculateAvailableTimeSlots(day, fromTime, toTime, d.calendar, duration,
                                                        zoneOffset(DisplayZone(d.row)), tzOffset, now);
  }

  // ---------------------------------------------------------------- properties

  /** Window endpoints: the start is the date plus the stored UTC hour:minute; the
      window is the forward distance from start to end time around the clock, so
      the end moves exactly one day when it is strictly earlier, and an equal pair
      gives an empty window. */
  lemma WindowShape(day: int, fromTime: int, toTime: int)
    ensures var w := AvailabilityWindow(day, fromTime, toTime);
      var fm := MinuteOfDay(fromTime, 0);
      var tm := MinuteOfDay(toTime, 0);
      && w.from == day * MsPerDay + fm * MsPerMinute
      && w.to - w.from == ((tm - fm) % MinutesPerDay) * MsPerMinute
      && w.from <= w.to < w.from + MsPerDay
      && (w.to == w.from <==> fm == tm)
      && (tm < fm <==> w.to == day * MsPerDay + tm * MsPerMinute + MsPerDay)
  {
  }

  /** The server-local date of the window is the requested date on a server at or
      east of UTC, and the day before on a server west of UTC. */
  lemma ServerLocalDayCases(day: int, tzOffset: int)
    requires -MinutesPerDay < tzOffset < MinutesPerDay
    ensures tzOffset <= 0 ==> ServerLocalDay(day, tzOffset) == day
    ensures tzOffset > 0 ==> ServerLocalDay(day, tzOffset) == day - 1
  {
    MulDiv(day * MinutesPerDay);
    assert (day * MsPerDay) / MsPerMinute == day * MinutesPerDay;
  }

  /** The Date arithmetic of the window is independent of the server's zone: building
      a local date-time and subtracting the offset lands on the UTC wall clock. */
  lemma LocalShiftCancels(day: int, hours: int, minutes: int, tzOffset: int)
    ensures LocalDateTime(day, hours, minutes, tzOffset) - tzOffset * MsPerMinute
         == day * MsPerDay + (hours * 60 + minutes) * MsPerMinute
  {
  }

  /** Grid rules: the first candidate is `from`, consecutive candidates are `step`
      apart, every candidate is before `to`, and one more step would reach `to`. */
  lemma {:induction false} GridShape(from: int, to: int, step: int)
    requires step > 0
    ensures var g := Grid(from, to, step);
      (&& (forall i :: 0 <= i < |g| ==> g[i] == from + i * step && g[i] < to)
       && from + |g| * step >= to
       && (from < to ==> |g| > 0))
    decreases if from < to then to - from else 0
  {
    if from < to {
      GridShape(from + step, to, step);
      var g, t := Grid(from, to, step), Grid(from + step, to, step);
      assert g == [from] + t;
      forall i | 0 <= i < |g| ensures g[i] == from + i * step && g[i] < to {
        if i > 0 {
          assert g[i] == t[i - 1];
        }
      }
    }
  }

  lemma MulMonotone(a: int, b: int, step: int)
    requires step > 0 && a * step > b * step
    ensures a > b
  {
    assert (a - b) * step == a * step - b * step;
  }

  lemma MulBounds(k: int, step: int)
    requires step > 0
    ensures k >= 1 ==> k * step >= step
    ensures k <= -1 ==> k * step <= -step
  {
  }

  lemma MulStrict(i: int, j: int, step: int)
    requires step > 0 && i < j
    ensures i * step < j * step
  {
    assert j * step - i * step == (j - i) * step;
    MulBounds(j - i, step);
  }

  /** Euclidean division is determined by quotient and remainder. */
  lemma DivModUnique(a: int, step: int, q: int, r: int)
    requires step > 0 && 0 <= r < step && a == q * step + r
    ensures a / step == q && a % step == r
  {
    var q', r' := a / step, a % step;
    assert (q - q') * step == r' - r;
    MulBounds(q - q', step);
  }

  lemma GridMemberOnLattice(from: int, to: int, step: int, x: int)
    requires step > 0 && x in Grid(from, to, step)
    ensures from <= x < to && (x - from) % step == 0
  {
    var g := Grid(from, to, step);
    GridShape(from, to, step);
    var i :| 0 <= i < |g| && g[i] == x;
    assert x - from == i * step + 0;
    DivModUnique(x - from, step, i, 0);
  }

  lemma LatticeMemberInGrid(from: int, to: int, step: int, x: int)
    requires step > 0 && from <= x < to && (x - from) % step == 0
    ensures x in Grid(from, to, step)
  {
    var g := Grid(from, to, step);
    GridShape(from, to, step);
    var k := (x - from) / step;
    assert x - from == k * step;
    assert k >= 0;
    assert from + |g| * step >= to > x == from + k * step;
    MulMonotone(|g|, k, step);
    assert g[k] == x;
  }

  /** A time is a candidate exactly when it is on the `step` lattice from `from`
      and strictly before `to`. */
  lemma GridMembers(from: int, to: int, step: int, x: int)
    requires step > 0
    ensures x in Grid(from, to, step) <==> (from <= x < to && (x - from) % step == 0)
  {
    if x in Grid(from, to, step) {
      GridMemberOnLattice(from, to, step, x);
    }
    if from <= x < to && (x - from) % step == 0 {
      LatticeMemberInGrid(from, to, step, x);
    }
  }

  predicate StrictlyIncreasing(s: seq<int>)
  {
    forall i, j :: 0 <= i < j < |s| ==> s[i] < s[j]
  }

  /** The candidates come in strictly increasing order. */
  lemma GridIncreasing(from: int, to: int, step: int)
    requires step > 0
    ensures StrictlyIncreasing(Grid(from, to, step))
  {
    var g := Grid(from, to, step);
    GridShape(from, to, step);
    forall i, j | 0 <= i < j < |g| ensures g[i] < g[j] {
      MulStrict(i, j, step);
    }
  }

  /** For a non-empty busy period and a slot of positive length, the six-clause test
      is exactly "the open intervals intersect": a slot that only touches a busy
      period at either edge is not an overlap. */
  lemma OverlapIsIntersection(slot: int, slotEnd: int, busy: Interval)
    requires busy.start < busy.end && slot < slotEnd
    ensures Overlaps(slot, slotEnd, busy) <==> (slot < busy.end && slotEnd > busy.start)
  {
  }

  /** A slot starting at or before `now` is never kept, whatever the busy data. */
  lemma PastSlotsDropped(slot: int, busy: seq<Interval>, now: int, step: int)
    requires slot <= now
    ensures !IsFree(slot, busy, now, step)
  {
  }

  /** The filter keeps exactly the free candidates. */
  lemma {:induction false} FreeSlotsMembers(slots: seq<int>, busy: seq<Interval>, now: int, step: int, x: int)
    ensures x in FreeSlots(slots, busy, now, step) <==> (x in slots && IsFree(x, busy, now, step))
  {
    if |slots| > 0 {
      FreeSlotsMembers(slots[1..], busy, now, step, x);
      assert slots == [slots[0]] + slots[1..];
    }
  }

  /** The filter keeps the grid's order: on increasing input its result is
      increasing and no longer than the input (which elements it keeps is
      `FreeSlotsMembers`). */
  lemma {:induction false} FreeSlotsIncreasing(slots: seq<int>, busy: seq<Interval>, now: int, step: int)
    requires StrictlyIncreasing(slots)
    ensures StrictlyIncreasing(FreeSlots(slots, busy, now, step))
    ensures |FreeSlots(slots, busy, now, step)| <= |slots|
  {
    if |slots| > 0 {
      var rest := FreeSlots(slots[1..], busy, now, step);
      FreeSlotsIncreasing(slots[1..], busy, now, step);
      forall y | y in rest ensures slots[0] < y {
        FreeSlotsMembers(slots[1..], busy, now, step, y);
      }
      var r := FreeSlots(slots, busy, now, step);
      forall i, j | 0 <= i < j < |r| ensures r[i] < r[j] {
        if IsFree(slots[0], busy, now, step) {
          assert r == [slots[0]] + rest;
          if i == 0 {
            assert r[j] == rest[j - 1];
            assert rest[j - 1] in rest;
          } else {
            assert r[i] == rest[i - 1] && r[j] == rest[j - 1];
          }
        } else {
          assert r == rest;
        }
      }
    }
  }

  /** Filtering distributes over concatenation. */
  lemma {:induction false} FreeSlotsAppend(a: seq<int>, b: seq<int>, busy: seq<Interval>, now: int, step: int)
    ensures FreeSlots(a + b, busy, now, step) == FreeSlots(a, busy, now, step) + FreeSlots(b, busy, now, step)
  {
    if |a| > 0 {
      assert (a + b)[1..] == a[1..] + b;
      FreeSlotsAppend(a[1..], b, busy, now, step);
    } else {
      assert a + b == b;
    }
  }

  /** When every candidate is free, the filter keeps them all. */
  lemma {:induction false} FreeSlotsAllKept(slots: seq<int>, busy: seq<Interval>, now: int, step: int)
    requires forall i :: 0 <= i < |slots| ==> IsFree(slots[i], busy, now, step)
    ensures FreeSlots(slots, busy, now, step) == slots
  {
    if |slots| > 0 {
      FreeSlotsAllKept(slots[1..], busy, now, step);
    }
  }

  /** Formatting gives exactly one string per slot, and each reads back as the
      slot's wall-clock minute in the display zone. */
  lemma FormatAllReadsBack(slots: seq<int>, offset: int)
    ensures |FormatAll(slots, offset)| == |slots|
    ensures forall i :: 0 <= i < |slots| ==> ParseHHmm(FormatAll(slots, offset)[i]) == Some(MinuteOfDay(slots[i], offset))
  {
    forall i | 0 <= i < |slots| ensures ParseHHmm(FormatAll(slots, offset)[i]) == Some(MinuteOfDay(slots[i], offset)) {
      ParseFormatHHmm(MinuteOfDay(slots[i], offset));
    }
  }

  /** The slot list is the formatting, one string each, of the times that are on
      the grid of the day's window, start strictly after `now` and overlap no
      busy period of the first provider entry, in increasing order. */
  lemma AvailableSlotsSpec(day: int, fromTime: int, toTime: int, calendar: CalendarResponse,
                           duration: int, displayOffset: int, tzOffset: int, now: int)
    requires duration > 0
    ensures var w := AvailabilityWindow(ServerLocalDay(day, tzOffset), fromTime, toTime);
      var step := duration * MsPerMinute;
      var busy := BusyIntervals(calendar);
      var free := FreeSlots(CandidateStarts(day, fromTime, toTime, duration, tzOffset), busy, now, step);
      && AvailableSlots(day, Some(fromTime), Some(toTime), calendar, duration, displayOffset, tzOffset, now) == FormatAll(free, displayOffset)
      && StrictlyIncreasing(free)
      && (forall x :: x in free <==>
            (w.from <= x < w.to && (x - w.from) % step == 0 && x > now &&
             !(exists j :: 0 <= j < |busy| && Overlaps(x, x + step, busy[j]))))
  {
    var w := AvailabilityWindow(ServerLocalDay(day, tzOffset), fromTime, toTime);
    var step := duration * MsPerMinute;
    var busy := BusyIntervals(calendar);
    var g := Grid(w.from, w.to, step);
    GridIncreasing(w.from, w.to, step);
    FreeSlotsIncreasing(g, busy, now, step);
    forall x ensures x in FreeSlots(g, busy, now, step) <==>
            (w.from <= x < w.to && (x - w.from) % step == 0 && x > now &&
             !(exists j :: 0 <= j < |busy| && Overlaps(x, x + step, busy[j])))
    {
      FreeSlotsMembers(g, busy, now, step, x);
      GridMembers(w.from, w.to, step, x);
    }
  }

  /** Equal start and end times give an empty window and so no slot. */
  lemma EqualTimesNoSlots(day: int, fromTime: int, toTime: int, calendar: CalendarResponse,
                          duration: int, displayOffset: int, tzOffset: int, now: int)
    requires duration > 0 && MinuteOfDay(fromTime, 0) == MinuteOfDay(toTime, 0)
    ensures AvailableSlots(day, Some(fromTime), Some(toTime), calendar, duration, displayOffset, tzOffset, now) == []
  {
    WindowShape(ServerLocalDay(day, tzOffset), fromTime, toTime);
  }

  /** Busy periods come from the first provider entry only. */
  lemma BusyFromFirstEntry(first: FreeBusyData, rest: seq<FreeBusyData>)
    ensures BusyIntervals(CalendarResponse([first] + rest)) == BusyIntervals(CalendarResponse([first]))
  {
  }

  /** Fail-open: with no grant, no grant e-mail or a provider failure, the slot list is
      the formatted grid minus the slots that do not start after `now`. */
  lemma FallbackKeepsAllFutureSlots(rows: seq<AvailabilityRow>, day: int, reply: ProviderReply, duration: int,
                                    now: int, tzOffset: int, zoneOffset: string -> int)
    requires duration > 0
    requires var d := GetData(rows, day, reply); d.request.None? || reply.Failed?
    ensures var d := GetData(rows, day, reply);
      var r := TimeTableSlots(rows, day, reply, duration, now, tzOffset, zoneOffset);
      d.row.Some? && d.row.value.fromTime.Some? && d.row.value.toTime.Some? ==>
        forall x :: x in FreeSlots(CandidateStarts(day, d.row.value.fromTime.value, d.row.value.toTime.value, duration, tzOffset), [], now, duration * MsPerMinute)
          <==> (x in CandidateStarts(day, d.row.value.fromTime.value, d.row.value.toTime.value, duration, tzOffset) && x > now)
    ensures var d := GetData(rows, day, reply);
      d.row.Some? && d.row.value.fromTime.Some? && d.row.value.toTime.Some? ==>
        TimeTableSlots(rows, day, reply, duration, now, tzOffset, zoneOffset)
          == FormatAll(FreeSlots(CandidateStarts(day, d.row.value.fromTime.value, d.row.value.toTime.value, duration, tzOffset), [], now, duration * MsPerMinute),
                       zoneOffset(DisplayZone(d.row)))
  {
    var d := GetData(rows, day, reply);
    if d.row.Some? && d.row.value.fromTime.Some? && d.row.value.toTime.Some? {
      var g := CandidateStarts(day, d.row.value.fromTime.value, d.row.value.toTime.value, duration, tzOffset);
      forall x ensures x in FreeSlots(g, [], now, duration * MsPerMinute) <==> (x in g && x > now) {
        FreeSlotsMembers(g, [], now, duration * MsPerMinute, x);
      }
    }
  }

  /** Without an availability row for the date's weekday, the list is empty; a row
      with an absent start or end time gives an empty list too. */
  lemma NoRowNoSlots(rows: seq<AvailabilityRow>, day: int, reply: ProviderReply, duration: int,
                     now: int, tzOffset: int, zoneOffset: string -> int)
    requires duration > 0
    requires var row := FindRow(rows, day); row.None? || row.value.fromTime.None? || row.value.toTime.None?
    ensures TimeTableSlots(rows, day, reply, duration, now, tzOffset, zoneOffset) == []
  {
  }

  /** The server does not look at `isActive`: rows that differ only in that flag give
      the same slot list, so an inactive weekday still gets slots here. */
  lemma SlotsIgnoreIsActive(rows: seq<AvailabilityRow>, flags: seq<bool>, day: int, reply: ProviderReply, duration: int,
                            now: int, tzOffset: int, zoneOffset: string -> int)
    requires duration > 0 && |flags| == |rows|
    ensures var toggled := seq(|rows|, i requires 0 <= i < |rows| => rows[i].(isActive := flags[i]));
      TimeTableSlots(toggled, day, reply, duration, now, tzOffset, zoneOffset)
        == TimeTableSlots(rows, day, reply, duration, now, tzOffset, zoneOffset)
  {
    var toggled := seq(|rows|, i requires 0 <= i < |rows| => rows[i].(isActive := flags[i]));
    var name := RenderCalendar.WeekdayName(day);
    var p := (r: AvailabilityRow) => r.day == name;
    Seqs.FindIndexRespects(rows, toggled, p, p);
  }
}

=== FILE: wrappers.dfy ===
/** Option and Result values, standing for JavaScript's `undefined` and for thrown errors. */
module Wrappers {

  datatype Option<+T> = None | Some(value: T)

  datatype Result<+T> = Ok(value: T) | Err(error: string)
}

=== FILE: zod_schemas.dfy ===
/**
 * The form validators: the onboarding form (full name and username), its
 * server-side variant that also asks whether the username is free, and the
 * settings form (full name and profile image).
 *
 * A field is `Some(text)` when the form carries a string and `None` when it is
 * missing. A string check chain reports every check that fails, in the order
 * the checks are declared; an object reports its fields' issues in the order
 * its fields are declared. The server-side username pipes its format chain into
 * an asynchronous uniqueness refinement: the object starts every field's parse
 * before awaiting any, and the pipe awaits the format chain before running the
 * refinement, so the refinement's issue comes after every field's own issues.
 */
module ZodSchemas {
  import opened Wrappers

  const NameMin := 3
  const NameMax := 50

  /** An issue's message: a text, the conform library's "validation undefined"
      marker, or the schema library's default message for a missing string. */
  datatype Message = Text(text: string) | ValidationUndefined | Required

  /** One reported issue: the field it is about, its message, and whether it stops
      further validation. */
  datatype Issue = Issue(path: string, message: Message, fatal: bool)

  /** The uniqueness check handed to the server-side schema: not supplied, or
      supplied and answering whether the username is free. */
  datatype Checker = Absent | Returns(isUnique: bool)

  datatype OnboardingValue = OnboardingValue(username: string, fullName: string)
  datatype SettingsValue = SettingsValue(fullName: string, profileImage: string)

  /** A parse: the typed value, or the issues found. */
  datatype Parsed<+T> = Success(value: T) | Failure(issues: seq<Issue>)

  const NameTooShort := Text("Name must contain at least 3 characters")
  const NameTooLong := Text("Name must be less than 50 characters")
  const UsernameTooShort := Text("Username must contain at least 3 characters")
  const UsernameTooLong := Text("Username must be less than 50 characters")
  const UsernameBadChars := Text("Username must contain only letters, numbers, and hyphens")
  const UsernameTaken := Text("Username is already taken")

  /** One character of the class `[a-zA-Z0-9-]`. */
  predicate IsUsernameChar(c: char)
  {
    ('a' <= c <= 'z') || ('A' <= c <= 'Z') || ('0' <= c <= '9') || c == '-'
  }

  /** `/^[a-zA-Z0-9-]+$/.test(s)`: one or more characters, all in the class. */
  predicate MatchesUsernamePattern(s: string)
  {
    |s| > 0 && forall i :: 0 <= i < |s| ==> IsUsernameChar(s[i])
  }

  /** `z.string().min(3, ...).max(50, ...)` on a full name: the messages of the failing checks. */
  function NameMessages(s: string): seq<Message>
  {
    (if |s| < NameMin then [NameTooShort] else []) + (if |s| > NameMax then [NameTooLong] else [])
  }

  /** The username chain `min(3)`, `max(50)`, `regex(...)`: the messages of the failing checks. */
  function UsernameMessages(s: string): seq<Message>
  {
    (if |s| < NameMin then [UsernameTooShort] else []) +
    (if |s| > NameMax then [UsernameTooLong] else []) +
    (if MatchesUsernamePattern(s) then [] else [UsernameBadChars])
  }

  /** Each message as an issue of the field `path`. */
  function AtPath(path: string, ms: seq<Message>): (r: seq<Issue>)
    ensures |r| == |ms|
    ensures forall i :: 0 <= i < |r| ==> r[i] == Issue(path, ms[i], false)
  {
    if |ms| == 0 then [] else [Issue(path, ms[0], false)] + AtPath(path, ms[1..])
  }

  /** A string field checked by a chain: `Required` when missing, else the chain's issues. */
  function FieldIssues(path: string, field: Option<string>, chain: string -> seq<Message>): seq<Issue>
  {
    match field
    case None => [Issue(path, Required, false)]
    case Some(s) => AtPath(path, chain(s))
  }

  /** The `superRefine` step after the username's format checks pass: a fatal
      "validation undefined" issue when no checker is supplied, "Username is already
      taken" when the checker answers no, nothing when it answers yes. */
  function UniquenessIssues(checker: Checker): seq<Issue>
  {
    match checker
    case Absent => [Issue("username", ValidationUndefined, true)]
    case Returns(isUnique) => if isUnique then [] else [Issue("username", UsernameTaken, false)]
  }

  /** The second half of the server-side username's pipe: the uniqueness
      refinement, which runs only on a username present and accepted by the
      format chain. */
  function PipedUniquenessIssues(username: Option<string>, checker: Checker): seq<Issue>
  {
    if FieldIssues("username", username, UsernameMessages) == [] then UniquenessIssues(checker) else []
  }

  /** `onboardingSchema`: full name, then username. */
  function ParseOnboarding(fullName: Option<string>, username: Option<string>): Parsed<OnboardingValue>
  {
    var issues := FieldIssues("fullName", fullName, NameMessages) + FieldIssues("username", username, UsernameMessages);
    if issues == [] then Success(OnboardingValue(username.value, fullName.value)) else Failure(issues)
  }

  /** `onBoardingSchemaValidation({ isUsernameUnique })`, parsed asynchronously:
      the username's format issues, then the full name's, then the awaited
      uniqueness refinement's. */
  function ParseOnboardingOnServer(username: Option<string>, fullName: Option<string>, checker: Checker): Parsed<OnboardingValue>
  {
    var issues := FieldIssues("username", username, UsernameMessages) + FieldIssues("fullName", fullName, NameMessages) +
                  PipedUniquenessIssues(username, checker);
    if issues == [] then Success(OnboardingValue(username.value, fullName.value)) else Failure(issues)
  }

  /** `settingsSchema`: full name with the length checks, profile image any string. */
  function ParseSettings(fullName: Option<string>, profileImage: Option<string>): Parsed<SettingsValue>
  {
    var issues := FieldIssues("fullName", fullName, NameMessages) +
                  FieldIssues("profileImage", profileImage, (s: string) => []);
    if issues == [] then Success(SettingsValue(fullName.value, profileImage.value)) else Failure(issues)
  }

  // ---------------------------------------------------------------- properties

  /** A full name is accepted exactly when it has 3 to 50 characters; a short name
      reports only the minimum message and a long one only the maximum message. */
  lemma NameRule(s: string)
    ensures NameMessages(s) == [] <==> NameMin <= |s| <= NameMax
    ensures |s| < NameMin ==> NameMessages(s) == [NameTooShort]
    ensures |s| > NameMax ==> NameMessages(s) == [NameTooLong]
  {
  }

  /** A username passes the format checks exactly when it has 3 to 50 characters,
      each a letter, a digit or a hyphen; the bad-character message appears exactly
      when some character is outside that class (or the text is empty). */
  lemma UsernameRule(s: string)
    ensures UsernameMessages(s) == [] <==>
      NameMin <= |s| <= NameMax && forall i :: 0 <= i < |s| ==> IsUsernameChar(s[i])
    ensures UsernameBadChars in UsernameMessages(s) <==> !MatchesUsernamePattern(s)
    ensures UsernameTooShort in UsernameMessages(s) <==> |s| < NameMin
    ensures UsernameTooLong in UsernameMessages(s) <==> |s| > NameMax
  {
    var m := UsernameMessages(s);
    assert UsernameBadChars != UsernameTooShort && UsernameBadChars != UsernameTooLong && UsernameTooShort != UsernameTooLong;
    if |s| > NameMax {
      assert m[if |s| < NameMin then 1 else 0] == UsernameTooLong;
    }
    if !MatchesUsernamePattern(s) {
      assert m[|m| - 1] == UsernameBadChars;
    }
  }

  /** The onboarding form is accepted exactly when both fields are present and pass
      their rules, and the value carries them unchanged. */
  lemma OnboardingRule(fullName: Option<string>, username: Option<string>)
    ensures ParseOnboarding(fullName, username).Success? <==>
      && fullName.Some? && NameMin <= |fullName.value| <= NameMax
      && username.Some? && NameMin <= |username.value| <= NameMax
      && (forall i :: 0 <= i < |username.value| ==> IsUsernameChar(username.value[i]))
    ensures ParseOnboarding(fullName, username).Success? ==>
      ParseOnboarding(fullName, username).value == OnboardingValue(username.value, fullName.value)
  {
    if fullName.Some? {
      NameRule(fullName.value);
    }
    if username.Some? {
      UsernameRule(username.value);
    }
  }

  /** The server-side form is accepted exactly when the fields pass their rules and
      the checker is supplied and answers that the username is free. */
  lemma OnboardingOnServerRule(username: Option<string>, fullName: Option<string>, checker: Checker)
    ensures ParseOnboardingOnServer(username, fullName, checker).Success? <==>
      && ParseOnboarding(fullName, username).Success?
      && checker == Returns(true)
    ensures ParseOnboardingOnServer(username, fullName, checker).Success? ==>
      ParseOnboardingOnServer(username, fullName, checker).value == OnboardingValue(username.value, fullName.value)
  {
    OnboardingRule(fullName, username);
    if username.Some? {
      UsernameRule(username.value);
    }
  }

  /** The uniqueness step runs only on a well-formed username: with format issues
      the checker's answer makes no difference; without them, the full name's
      issues come first, followed by one fatal "validation undefined" issue for an
      absent checker or the "already taken" issue for a negative answer. */
  lemma UniquenessOnlyAfterFormat(username: Option<string>, fullName: Option<string>, c1: Checker, c2: Checker)
    ensures FieldIssues("username", username, UsernameMessages) != [] ==>
      ParseOnboardingOnServer(username, fullName, c1) == ParseOnboardingOnServer(username, fullName, c2)
    ensures FieldIssues("username", username, UsernameMessages) == [] && c1 == Absent ==>
      ParseOnboardingOnServer(username, fullName, c1) ==
        Failure(FieldIssues("fullName", fullName, NameMessages) + [Issue("username", ValidationUndefined, true)])
    ensures FieldIssues("username", username, UsernameMessages) == [] && c1 == Returns(false) ==>
      ParseOnboardingOnServer(username, fullName, c1) ==
        Failure(FieldIssues("fullName", fullName, NameMessages) + [Issue("username", UsernameTaken, false)])
    ensures FieldIssues("username", username, UsernameMessages) == [] && c1 == Returns(true) ==>
      ParseOnboardingOnServer(username, fullName, c1) == ParseOnboarding(fullName, username)
  {
  }

  /** Settings are accepted exactly when the name passes its rule and an image string
      is present, whatever it is; the empty image string is accepted. */
  lemma SettingsRule(fullName: Option<string>, profileImage: Option<string>)
    ensures ParseSettings(fullName, profileImage).Success? <==>
      fullName.Some? && NameMin <= |fullName.value| <= NameMax && profileImage.Some?
    ensures ParseSettings(fullName, profileImage).Success? ==>
      ParseSettings(fullName, profileImage).value == SettingsValue(fullName.value, profileImage.value)
    ensures fullName.Some? && NameMin <= |fullName.value| <= NameMax ==>
      ParseSettings(fullName, Some("")) == Success(SettingsValue(fullName.value, ""))
  {
    if fullName.Some? {
      NameRule(fullName.value);
    }
  }
}
